=== FILE: README.md ===
# Admin session guard, auth endpoints and content helpers — a Dafny model

This project models the server-side core of a small blog's admin area:

- **The admin session guard.** It is the request middleware. It protects `/admin` and everything under `/admin/` with two cookies, `sb-access-token` and `sb-refresh-token`. It verifies the access token with the identity provider, tries one refresh when verification fails, and then either rewrites both cookies or deletes both.
- **The sign-in and sign-out endpoints.** Sign-in turns the provider's password sign-in reply into a 401 with the provider's message, a 401 for an unconfirmed account, or a 200 that sets both cookies. Sign-out re-binds the provider session from the cookies, writes an audit row, signs out, always deletes both cookies, and answers 500 or redirects to `/login`.
- **The string helpers.**
  - `generateSlug` turns a post title into a URL slug.
  - The storage-path extraction of `deleteCoverImage` turns an image URL into a storage path.
  - The dashboard's action label and "time ago" formatters.
- **The activity logger.** `logActivity` works behind an authentication gate. Its seven helpers fix the row each one writes, and `updateLastLogin` stamps the user's own profile row.
- **The post editor's decision rules.**
  - Save validation, and the saved `published` and `published_at` values.
  - Cover-image validation.
  - The slug that follows the title until the slug is edited by hand.
  - What a save reports, and where a newly created post redirects.

The identity and database provider is not modelled. Each handler is a pure function of the request and of the provider's replies, which are parameters. It returns three things:
- an outcome: `Next(user)`, `Redirect(location)` or `Response(status, body)`;
- the ordered cookie effects: `SetCookie` or `DeleteCookie`;
- the ordered trace of provider calls.

Every handler makes all of its provider calls before it writes a cookie, so keeping the two lists apart loses no ordering. A browser's cookie jar is a `map<string, string>`. `Http.Apply` plays a response's cookie effects onto it, which lets the handlers be composed in `SessionFlow`.

Modules and files:

| module | file | what it holds |
|---|---|---|
| `Text` | text.dfy | `Option`, JavaScript truthiness of an optional string, ASCII character classes, `trim`, substring search, decimal rendering |
| `Provider` | provider.dfy | users, sessions, provider replies, activity rows, the provider-call trace |
| `Http` | http.dfy | cookie names and attributes, the `secure` rule, outcomes, the cookie jar and how effects change it |
| `Middleware` | middleware.dfy | `onRequest` |
| `Login`, `Logout` | login.dfy, logout.dfy | the two `POST` endpoints |
| `SlugSteps`, `PostUtils` | slug_steps.dfy, postutils.dfy | the five slug rewriting steps; `generateSlug` and the cover-image path |
| `DashboardUtils` | dashboard.dfy | `formatActivityAction`, `formatTimeAgo` |
| `ActivityLogger` | activitylogger.dfy | `logActivity`, the seven helpers, `updateLastLogin` |
| `PostEditor` | posteditor.dfy | the editor as a state machine, with its save and upload rules |
| `SessionFlow` | session_flow.dfy | the handlers composed through the cookie jar |

Three properties of the code are worth knowing before reading the model:

- **Cookie attributes after a refresh.** The guard's refresh writes both session cookies without `httpOnly` (src/middleware.js:49-60). The login endpoint sets `httpOnly: true` (src/pages/api/auth/login.js:32,40). `Middleware.RefreshCookieAttrs` and `Login.LoginCookieAttrs` differ only in that field, so a refresh turns the session cookies into script-readable ones.
- **Transport errors.** The guard and the sign-out endpoint have no `try`/`catch`, so a provider call that fails at the transport level propagates as an exception. The model does not describe that path (see "Left out").
- **Which sign-out.** The model follows src/pages/api/auth/logout.js. It re-binds the session when both cookies are present, writes an audit row when a user is known, then signs out.

## Model

| member | source | states |
|---|---|---|
| Middleware.OnRequest | src/middleware.js:4-70 | Cookie effects are none, both set with equal attributes, or both deleted on `/`. The request proceeds iff the path is unprotected, or both cookies are present and either verify or refresh succeeds; otherwise it redirects to `/login`. The provider is called iff the path is protected and both cookies are present: first verify with the access token, then refresh only after a failed verify. |
| Middleware.AdminRouteExamples | src/middleware.js:9 | `/admin` and `/admin/posts/new` are protected; `/administrator`, `/` and `/admi` are not. |
| Middleware.NoPartialPrefixMatch | src/middleware.js:9 | A path that starts with `/admin` but continues with anything other than `/` is not protected. |
| Middleware.UnprotectedPassesThrough | src/middleware.js:9-11 | An unprotected path proceeds with no user attached, no cookie effect and no provider call. |
| Middleware.MissingCookieRedirects | src/middleware.js:12-17 | On a protected path, a missing or empty cookie redirects to `/login` with no provider call and no cookie effect. A lone surviving cookie is left in place. |
| Middleware.ValidTokenProceeds | src/middleware.js:20-25 | A verify reply with a user and no error proceeds with that user, after exactly one call (verify with the access token) and with no cookie effect. |
| Middleware.RefreshOnlyAfterFailedVerify | src/middleware.js:25-29 | Refresh is called iff verify failed (an error or no user). It is then called exactly once, second, with the refresh cookie's value. |
| Middleware.FailedRefreshClearsBoth | src/middleware.js:31-36 | A refresh with an error, no user or no session deletes both cookies on path `/` and redirects to `/login`. |
| Middleware.RefreshRewritesBoth | src/middleware.js:38-62 | A successful refresh sets the access cookie, then the refresh cookie, to the new session's tokens. Both get path `/`, maxAge 604800, SameSite lax, and `secure` iff production, or `x-forwarded-proto` is `https`, or the URL protocol is `https:`. The request proceeds with the refreshed user. |
| Http.PairedCookiesKeepCoherence | src/middleware.js:31-60 | A paired cookie write leaves the jar unchanged, or leaves it holding both cookies or neither. A set pair leaves the jar holding exactly the written values; a delete pair leaves neither cookie. |
| Login.Post | src/pages/api/auth/login.js:3-47 | There is exactly one provider call, with the body's email and password unchanged. The status is 200 or 401. Cookies are set iff the reply has a session and no error, and then as a pair. A provider error always yields its own message. |
| Login.ProviderErrorIs401 | src/pages/api/auth/login.js:11-13 | A provider error gives 401 with the provider's message and no cookie, even when the session is also missing. |
| Login.MissingSessionIs401 | src/pages/api/auth/login.js:15-22 | No error and no session gives 401 with the fixed "email is confirmed" text and no cookie. |
| Login.UnconfirmedDistinguishable | src/pages/api/auth/login.js:11-22 | The unconfirmed-account response differs from a bad-credentials response whenever the provider's message differs from the fixed text. |
| Login.SessionSetsBothCookies | src/pages/api/auth/login.js:24-46 | A session gives 200 `{success: true}`. It sets exactly two cookies, access then refresh, holding the session's tokens. Both get path `/`, httpOnly, SameSite lax, maxAge 604800, and the same three-way `secure` rule. |
| Logout.Post | src/pages/api/auth/logout.js:3-38 | Both cookies are always deleted on path `/`. The first call is a re-bind iff both cookies are present and non-empty. Sign-out is the last call and happens only once. A sign-out error gives 500 with its message; otherwise the endpoint redirects to `/login`. |
| Logout.CallOrder | src/pages/api/auth/logout.js:7-31 | The calls are: re-bind (only with both cookies), current user, audit insert (only with a user), sign-out. |
| Logout.RebindUsesCookieValues | src/pages/api/auth/logout.js:4-12 | `setSession` receives exactly the two cookie values. |
| Logout.AuditRowIffUser | src/pages/api/auth/logout.js:14-25 | An audit row is inserted iff the provider returns a user. The row has that user's id, action `user_logout`, resource type `auth`, and the email in its metadata. |
| Logout.LogoutWithoutCookies | src/pages/api/auth/logout.js:7-37 | Without cookies there is no re-bind, sign-out still happens, and the endpoint redirects. |
| SlugSteps.LowerAll | src/lib/postUtils.js:17 | Each character is the input's character at the same position, lowercased; no upper-case letter remains. |
| Text.Trim | src/lib/postUtils.js:18 | The result is a slice of the input with only white space outside it, and it starts and ends with a non-space: exactly the input with its edge white space removed. It is empty iff the input is all white space. |
| SlugSteps.RemoveSpecial | src/lib/postUtils.js:19 | Only `[A-Za-z0-9_]`, white space and `-` remain. Each such character survives as often as it occurs in the input, and the result is a subsequence of the input, so the kept characters stay in order. No upper-case letter is introduced. |
| SlugSteps.HyphenateSpaces | src/lib/postUtils.js:20 | The result is the input split at its maximal white-space runs and joined with `-`: each run becomes one hyphen and every other character is kept in order. No white space remains. Input made of kept, lower-case characters yields only slug characters. |
| SlugSteps.CollapseHyphens | src/lib/postUtils.js:21 | The result is the input split at its maximal `-` runs and joined with `-`: each run becomes one hyphen and every other character is kept in order. No `--` remains, the result starts with `-` iff the input does, and slug characters are preserved. |
| SlugSteps.StripEdgeHyphens | src/lib/postUtils.js:22 | The result is the input with one leading hyphen removed iff it has one, then one trailing hyphen removed iff one is left at the end; nothing else changes. Text without `--` leaves without `--` and without a hyphen at either end. |
| PostUtils.GenerateSlug | src/lib/postUtils.js:13-23 | An absent or empty title gives "". For every other title the slug is the title's words joined by single hyphens, after lowercasing and dropping special characters. A word is a maximal piece between runs of white space and hyphens, so every separating run becomes exactly one hyphen. Every slug uses only `[a-z0-9_-]`, has no `--`, and has no edge hyphen. Deleting its hyphens gives exactly the title's `[A-Za-z0-9_]` characters, lowercased and in order. This covers every expectation in src/lib/postUtils.test.js:9-37. |
| PostUtils.GenerateSlugIdempotent | src/lib/postUtils.js:16-22 | The slug of a slug is the slug itself. |
| PostUtils.GenerateSlugOfSlug | src/lib/postUtils.js:16-22 | Any text that is already slug-shaped (only `[a-z0-9_-]`, no `--`, no edge hyphen), taken as a title, gives itself back. |
| PostUtils.CleanedSlug | src/lib/postUtils.js:17-19 | Lowercasing, trimming and dropping special characters leave slug-shaped text unchanged. |
| PostUtils.HyphenatedSlug | src/lib/postUtils.js:20-22 | Hyphenating white space, collapsing `-` runs and stripping edge hyphens leave slug-shaped text unchanged. |
| PostUtils.HyphenatedSpellsWords | src/lib/postUtils.js:16-22 | For every title, the six steps yield the words of the lowercased, filtered title joined by single hyphens, and the slug has exactly those words. |
| SlugSteps.JoinWordsOfSlug | src/lib/postUtils.js:20-22 | Every slug-shaped text equals its words joined by single hyphens. |
| SlugSteps.WordsHyphenateSpaces | src/lib/postUtils.js:20 | Replacing white-space runs by hyphens changes no word, nor whether the text starts with a word. |
| SlugSteps.WordsCollapseHyphens | src/lib/postUtils.js:21 | Collapsing hyphen runs changes no word, nor whether the text starts with a word. |
| SlugSteps.WordsStripEdgeHyphens | src/lib/postUtils.js:22 | Removing the edge hyphens changes no word. |
| SlugSteps.WordsTrimRemoveSpecial | src/lib/postUtils.js:18-19 | Trimming before the special-character filter changes no word of the filtered text. |
| PostUtils.CoverImagePath | src/lib/postUtils.js:186-192 | There is no path iff the URL contains no `/images/`. Otherwise the path is what follows the first marker, up to the next marker or the end. No marker of the remaining text starts inside the path, including one that overlaps the path's end. |
| PostUtils.CoverImagePathRoundTrip | src/lib/postUtils.js:187-192 | The path is recovered from `<base>/images/<path>` when `path` holds no marker and `base` ends no marker early. |
| PostUtils.DeleteCoverImage | src/lib/postUtils.js:184-203 | A URL without the marker is rejected with "Invalid image URL" and removes nothing. Otherwise exactly the extracted path is removed, and the storage error, if any, is reported. |
| DashboardUtils.FormatActivityAction | src/lib/dashboardUtils.js:6-17 | A known action shows its label; any other action is shown unchanged. |
| DashboardUtils.ActionLabelExamples | src/lib/dashboardUtils.js:7-16 | Examples: `user_login`, `post_created` and `file_uploaded` show their labels; an unknown action is shown as it is. |
| DashboardUtils.ClassifyAge | src/lib/dashboardUtils.js:27-36 | With `s` the floor of the elapsed milliseconds over 1000, exactly one bucket applies: under a minute, minutes, hours, days (under a week), or older. The count is the floor of `s` over the unit, between 1 and the next unit's size. |
| DashboardUtils.FormatTimeAgo | src/lib/dashboardUtils.js:24-37 | Under a minute, including future dates, reads "just now". From a minute to an hour reads `<minutes> min ago`. Up to a day reads `<hours> hour ago`, and up to a week `<days> day ago`, with an `s` after the unit when the count is above one. A week or more reads as the locale date. Each count is the elapsed whole seconds floored by the unit. |
| DashboardUtils.ClassifyAgeMonotonic | src/lib/dashboardUtils.js:27-36 | An older activity never shows a finer unit, nor a smaller count of the same unit. |
| DashboardUtils.SingularAndPlural | src/lib/dashboardUtils.js:31-35 | A bucket reads as its count then its unit. Minutes read "min ago" with no plural form. Hours and days take the plural above one. |
| DashboardUtils.RenderInjective | src/lib/dashboardUtils.js:29-35 | Distinct buckets, apart from the locale date, render distinct texts. |
| DashboardUtils.FormatTimeAgoDeterminesBucket | src/lib/dashboardUtils.js:29-35 | Within the last week, two ages read the same iff they fall in the same bucket with the same count. |
| DashboardUtils.FormatTimeAgoExamples | src/lib/dashboardUtils.js:27-36 | 30 s and −5 s read "just now"; 5 min reads "5 min ago"; 2 h reads "2 hours ago"; 3 days reads "3 days ago"; 10 days reads as the locale date. |
| ActivityLogger.LogActivity | src/lib/activityLogger.js:15-42 | The current user is asked for first. Without a user the result is "Not authenticated" and nothing is inserted. With a user exactly one row is inserted: the user's id, with the action, resource type, resource id and metadata as given. Success holds iff the insert reports no error; otherwise that error is returned. |
| ActivityLogger.Log | src/lib/activityLogger.js:49-144 | A helper inserts nothing without a user. With a user it inserts exactly one row: the helper's row with the user's id and the `now` timestamp, which reads back as the same helper with the same arguments. It succeeds iff there is a user and the insert reports no error, and an insert error is passed through. |
| ActivityLogger.HelperRoundTrip | src/lib/activityLogger.js:52-144 | Each helper's row determines the helper and its arguments: post id and title, setting, or file name and size. |
| ActivityLogger.HelperRowShape | src/lib/activityLogger.js:52-144 | Every helper row carries `metadata.timestamp`. It has a resource id exactly for the post helpers, and resource type `auth` exactly for login and logout. |
| ActivityLogger.HelperActionsAreLabelled | src/lib/activityLogger.js:53-139 | Every helper action is a key of the dashboard's label map, so it is shown by its label. The seven helper actions are exactly the seven labelled actions, pairwise distinct. |
| ActivityLogger.UpdateLastLogin | src/lib/activityLogger.js:72-93 | Without a user the result is `{success: false}`, with no error and no update. With a user there is one update of the row whose id is the user's id, stamped with `now`. Success holds iff the update reports no error. |
| ActivityLogger.UpdateLastLoginTouchesOwnRow | src/lib/activityLogger.js:76-88 | On the profile table, only the user's own row can change. It becomes `now` when the update reports no error. A failed update leaves the table unchanged, so the table changes only when the result is a success. No row is created, and every other row is unchanged. |
| PostEditor.SaveError | src/components/PostEditor.jsx:122-131 | A blank title gives "Title is required". Only a non-blank title with a blank slug gives "Slug is required". The form may be saved iff both are non-blank after trimming. |
| PostEditor.BuildPayload | src/components/PostEditor.jsx:136-146 | `published` is the Publish click or the checkbox. `published_at` is null iff neither is set. Otherwise it is the loaded post's `published_at` when that is truthy, else `now`. All other fields are as typed. |
| PostEditor.PublishedAtFollowsPublished | src/components/PostEditor.jsx:139-145 | A payload is published iff it has a publication time. Publishing a post that was saved published keeps its first publication time. |
| PostEditor.CheckImage | src/components/PostEditor.jsx:86-100 | No file does nothing. A non-`image/` type is rejected first. Then a size above 5·1024·1024 is rejected. Otherwise the file is accepted. |
| PostEditor.ImageSizeBoundary | src/components/PostEditor.jsx:96-100 | Exactly 5 MiB is accepted; one byte more is rejected. |
| PostEditor.HandleImageUpload | src/components/PostEditor.jsx:86-115 | Without a file nothing changes. The upload is called iff the file passes validation, and a rejected file shows the validation message. After an accepted upload the cover is the returned URL and the banner reads "Image uploaded successfully". After a failed upload the form is unchanged and the banner shows the provider's error, or "Failed to upload image" when there is none. Only the cover field and the banner ever change, and the cover changes only to the uploaded URL. |
| PostEditor.UploadBannerMatchesCover | src/components/PostEditor.jsx:103-112 | Once a file is picked, the banner reads success iff the upload ran and succeeded, and a successful upload leaves its URL as the cover. |
| PostEditor.SlugEffect | src/components/PostEditor.jsx:63-71 | The effect changes only the slug, and only while the slug has not been edited by hand. |
| PostEditor.StepKeepsTracking | src/components/PostEditor.jsx:63-84 | Every editor event keeps the invariant: without a hand edit and with a non-empty title, the slug is the title's slug. |
| PostEditor.RunKeepsTracking | src/components/PostEditor.jsx:63-84 | The invariant holds after any sequence of events. |
| PostEditor.ReachableTracks | src/components/PostEditor.jsx:14-84 | Every state reachable from a freshly opened editor satisfies the invariant. |
| PostEditor.ManualFlag | src/components/PostEditor.jsx:41-84 | The manual-slug flag is never cleared, and is set only by editing the slug or by loading a post. |
| PostEditor.ManualSlugIsKept | src/components/PostEditor.jsx:64-71 | Once the flag is set, no event except a slug edit or a load changes the slug. Title edits in particular leave it alone. |
| PostEditor.ManualSlugIsKeptOverRun | src/components/PostEditor.jsx:64-84 | The same over any sequence of such events. |
| PostEditor.TitleEditDerivesSlug | src/components/PostEditor.jsx:64-71 | Before any hand edit, typing a non-empty title sets the slug to that title's slug. |
| PostEditor.CreatedRedirect | src/components/PostEditor.jsx:165-171 | A new post's target starts with `/posts/` iff it is published, and with `/admin/posts/edit/` iff it is not. |
| PostEditor.CreatedRedirectRoundTrip | src/components/PostEditor.jsx:165-170 | The target gives back the slug or the id it was built from. A draft's target is behind the admin guard. |
| PostEditor.HandleSave | src/components/PostEditor.jsx:121-180 | An invalid form writes nothing and reports the first failing check. A valid form is written once: an update when editing, a create otherwise, with the payload above. A successful write is followed by the matching log helper and a success banner. Only a successful create redirects, to the target above. A failed write reports its error, or "Failed to save post". |
| PostEditor.TitleCheckedFirst | src/components/PostEditor.jsx:123-131 | A blank title is reported whatever the slug holds. |
| PostEditor.TrackedSlugPassesValidation | src/components/PostEditor.jsx:123-131 | A form whose slug is the generated slug of its title passes both save checks whenever the title has a word character: such a title is not blank, and neither is its slug. |
| SessionFlow.GuardKeepsCoherence | src/middleware.js:31-60 | The guard never leaves one session cookie without the other in a jar that held both or neither. |
| SessionFlow.LoginKeepsCoherence | src/pages/api/auth/login.js:30-44 | The same holds for sign-in. |
| SessionFlow.LogoutEndsSession | src/pages/api/auth/logout.js:29-31 | After sign-out neither cookie is left. The guard then redirects every admin request without calling the provider. |
| SessionFlow.SignInVisitSignOut | src/middleware.js:11-25 | After a sign-in, an admin visit whose token verifies proceeds with one verify call of the new token. Sign-out then re-binds that pair, and the next admin visit is redirected. |
| SessionFlow.RefreshCarriesOver | src/middleware.js:49-60 | After a refresh, the next request verifies the new access token, and sign-out re-binds the new pair. |

## Left out

- The identity and database provider: token verification, refresh rotation, the post table and storage. Only their replies are modelled, as parameters. Two tables are modelled only as far as the logger touches them. For `activity_logs` that is the rows inserted, read off the call trace. For `admin_profiles` it is the `last_login_at` column, as a map from row id to timestamp.
- The replies of `setSession` in sign-out and of the audit insert: the source does not read them. The same holds for the log helpers' results inside the post editor.
- Thrown exceptions. The guard and the endpoints have no `try`/`catch`, so a transport error propagates. The `catch` branches of `logActivity`, `updateLastLogin` and `deleteCoverImage` are not modelled.
- The rows that `logActivity` returns on success (`data` from `.select()`): they are database-generated.
- Validation of the sign-in body: the endpoint does none. An `email` or `password` missing from the body is not modelled separately.
- Header-name case-insensitivity and URL parsing: the request arrives as a parsed path, a protocol and an optional `x-forwarded-proto` value.
- Date parsing, `toISOString` and `toLocaleDateString`. The age is given as elapsed milliseconds, and timestamps and the locale date are opaque strings. An unparsable date (NaN) is out of scope.
- Unicode. `toLowerCase`, `\w`, `\s` and `trim` are modelled on ASCII. A non-ASCII character counts as special, so the slug filter removes it. JavaScript's `trim` also removes Unicode spaces, which this model does not. JavaScript's `toLowerCase` also maps a few non-ASCII letters to ASCII before the filter runs. For example, U+212A KELVIN SIGN becomes `k`, which JavaScript keeps and the model drops.
- `formatActivityAction` for prototype keys such as `toString`, where the JavaScript lookup finds an inherited function.
- The CRUD wrappers `createPost`, `updatePost`, `getPostById` and `isSlugUnique`, and `uploadCoverImage`. The last uses the clock and randomness for file names. Their replies are inputs where the editor reads them.
- The editor's delete flow (`handleDelete`). It calls a `deletePost` that the editor imports from src/lib/postUtils.js, which does not define one. Also left out: the loading, saving and preview flags, the one-second delay before a redirect, and all rendering.
- The other UI components: the dashboard, the post list, the full activity list (whose copies of the two formatters duplicate the ones modelled), the stat cards and the login form.
- The editor's `Loaded` event takes the three state updates of a successful load (`setFormData`, `setOriginalData`, `setSlugManuallyEdited(true)`) as one render, as React 18 batches them. If they landed separately, the slug effect would run once between the form update and the manual flag, and would regenerate the loaded slug from the title.
- Concrete slug examples from src/lib/postUtils.test.js are not stated one by one. The contract of `PostUtils.GenerateSlug` determines the slug of every title, including those.
- Concurrency between requests, for example two refreshes racing on one refresh token.

=== FILE: activitylogger.dfy ===
/** The activity logger: `logActivity` writes one `activity_logs` row for the
    authenticated user and refuses without one; seven helpers fix the action,
    resource type, resource id and metadata of the row; `updateLastLogin`
    stamps the user's own `admin_profiles` row. `now` stands for
    `new Date().toISOString()`, an opaque timestamp. */
module ActivityLogger {
  import opened Text
  import opened Provider
  import DashboardUtils

  /** Why a log or update did not happen. */
  datatype LogError =
    | NotAuthenticated              // `error: 'Not authenticated'`
    | StoreError(error: ProviderError)  // the error the table reported

  datatype LogResult = Success | Failure(error: LogError)

  /** A result with the provider calls made to reach it. */
  datatype LogRun = LogRun(result: LogResult, calls: seq<Call>)

  /** The rows a run inserted, in order. */
  function Inserted(calls: seq<Call>): (rows: seq<ActivityRecord>)
    ensures |rows| <= |calls|
    // Exactly the rows of the insert calls.
    ensures forall i :: 0 <= i < |rows| ==> InsertActivity(rows[i]) in calls
    ensures forall rec :: InsertActivity(rec) in calls ==> rec in rows
  {
    if calls == [] then []
    else (if calls[0].InsertActivity? then [calls[0].record] else []) + Inserted(calls[1..])
  }

  /** `currentUser` is what `getUser()` returns; `insertError` is the error of the insert. */
  function LogActivity(action: string, resourceType: Option<string>, resourceId: Option<string>,
                       metadata: Option<Metadata>, currentUser: Option<User>,
                       insertError: Option<ProviderError>): (r: LogRun)
    ensures |r.calls| >= 1 && r.calls[0] == GetUser(None)
    // No user: refused, nothing inserted.
    ensures currentUser.None? ==> r.result == Failure(NotAuthenticated) && Inserted(r.calls) == []
    // A user: exactly one row, owned by that user, holding the arguments unchanged.
    ensures currentUser.Some? ==>
      Inserted(r.calls) == [ActivityRecord(currentUser.value.id, action, resourceType, resourceId, metadata)]
    ensures r.result == Success <==> currentUser.Some? && insertError.None?
    ensures currentUser.Some? && insertError.Some? ==> r.result == Failure(StoreError(insertError.value))
  {
    if currentUser.None? then LogRun(Failure(NotAuthenticated), [GetUser(None)])
    else
      var record := ActivityRecord(currentUser.value.id, action, resourceType, resourceId, metadata);
      var calls := [GetUser(None), InsertActivity(record)];
      assert calls[1..][1..] == [];
      if insertError.Some? then LogRun(Failure(StoreError(insertError.value)), calls)
      else LogRun(Success, calls)
  }

  // The seven helpers.

  datatype Helper =
    | LogLogin
    | LogLogout
    | LogPostCreated(postId: string, title: string)
    | LogPostUpdated(postId: string, title: string)
    | LogPostDeleted(postId: string, title: string)
    | LogSettingsUpdated(setting: string)
    | LogFileUploaded(filename: string, sizeBytes: int)

  /** What a helper passes to `logActivity`. */
  datatype Entry = Entry(action: string, resourceType: string, resourceId: Option<string>, metadata: Metadata)

  /** The helper table. */
  function HelperEntry(h: Helper, now: string): Entry {
    match h
    case LogLogin =>
      Entry("user_login", "auth", None, map["timestamp" := Str(now), "event" := Str("login_success")])
    case LogLogout =>
      Entry("user_logout", "auth", None, map["timestamp" := Str(now), "event" := Str("logout")])
    case LogPostCreated(id, title) =>
      Entry("post_created", "post", Some(id), map["title" := Str(title), "timestamp" := Str(now)])
    case LogPostUpdated(id, title) =>
      Entry("post_updated", "post", Some(id), map["title" := Str(title), "timestamp" := Str(now)])
    case LogPostDeleted(id, title) =>
      Entry("post_deleted", "post", Some(id), map["title" := Str(title), "timestamp" := Str(now)])
    case LogSettingsUpdated(setting) =>
      Entry("settings_updated", "setting", None, map["setting" := Str(setting), "timestamp" := Str(now)])
    case LogFileUploaded(filename, size) =>
      Entry("file_uploaded", "file", None,
        map["filename" := Str(filename), "size_bytes" := Num(size), "timestamp" := Str(now)])
  }

  /** The action strings the helpers emit, one per helper kind. */
  const HelperActions: seq<string> := [
    "user_login", "user_logout", "post_created", "post_updated", "post_deleted",
    "settings_updated", "file_uploaded"]

  /** Running a helper: `logActivity` with its entry. */
  function Log(h: Helper, now: string, currentUser: Option<User>, insertError: Option<ProviderError>): (r: LogRun)
    ensures currentUser.None? ==> r.result == Failure(NotAuthenticated) && Inserted(r.calls) == []
    ensures currentUser.Some? ==> |Inserted(r.calls)| == 1 && Decode(Inserted(r.calls)[0]) == Some(h)
    // The one row is the helper's row for the signed-in user, stamped `now`.
    ensures currentUser.Some? ==> Inserted(r.calls) == [HelperRecord(h, now, currentUser.value.id)]
    ensures r.result == Success <==> currentUser.Some? && insertError.None?
    ensures currentUser.Some? && insertError.Some? ==> r.result == Failure(StoreError(insertError.value))
  {
    var e := HelperEntry(h, now);
    HelperRoundTrip(h, now, currentUser.GetOr(User("", "")).id);
    LogActivity(e.action, Some(e.resourceType), e.resourceId, Some(e.metadata), currentUser, insertError)
  }

  /** The row a helper writes for user `userId`. */
  function HelperRecord(h: Helper, now: string, userId: string): ActivityRecord {
    var e := HelperEntry(h, now);
    ActivityRecord(userId, e.action, Some(e.resourceType), e.resourceId, Some(e.metadata))
  }

  function StrField(md: Metadata, key: string): Option<string> {
    if key in md && md[key].Str? then Some(md[key].text) else None
  }

  /** Reads back which helper, with which arguments, wrote a row; None for a
      row no helper writes. */
  function Decode(rec: ActivityRecord): Option<Helper> {
    var md := rec.metadata.GetOr(map[]);
    match rec.resourceType
    case None => None
    case Some(kind) =>
      if kind == "auth" && rec.resourceId.None? then
        if rec.action == "user_login" then Some(LogLogin)
        else if rec.action == "user_logout" then Some(LogLogout)
        else None
      else if kind == "post" && rec.resourceId.Some? && StrField(md, "title").Some? then
        var id, title := rec.resourceId.value, StrField(md, "title").value;
        if rec.action == "post_created" then Some(LogPostCreated(id, title))
        else if rec.action == "post_updated" then Some(LogPostUpdated(id, title))
        else if rec.action == "post_deleted" then Some(LogPostDeleted(id, title))
        else None
      else if kind == "setting" && rec.resourceId.None? && rec.action == "settings_updated"
        && StrField(md, "setting").Some? then
        Some(LogSettingsUpdated(StrField(md, "setting").value))
      else if kind == "file" && rec.resourceId.None? && rec.action == "file_uploaded"
        && StrField(md, "filename").Some? && "size_bytes" in md && md["size_bytes"].Num? then
        Some(LogFileUploaded(StrField(md, "filename").value, md["size_bytes"].number))
      else None
  }

  /** A helper's row tells which helper wrote it and with which arguments. */
  lemma {:induction false} HelperRoundTrip(h: Helper, now: string, userId: string)
    ensures Decode(HelperRecord(h, now, userId)) == Some(h)
  {
  }

  /** Every helper row is stamped with `now`, and carries the resource id
      exactly for the post helpers. */
  lemma {:induction false} HelperRowShape(h: Helper, now: string)
    ensures var e := HelperEntry(h, now);
      && "timestamp" in e.metadata && e.metadata["timestamp"] == Str(now)
      && (e.resourceId.Some? <==> h.LogPostCreated? || h.LogPostUpdated? || h.LogPostDeleted?)
      && (e.resourceType == "auth" <==> h.LogLogin? || h.LogLogout?)
  {
  }

  /** The helper actions are exactly the labelled actions, one per helper
      kind, so no helper row is ever shown by the fallback. */
  lemma {:induction false} HelperActionsAreLabelled(h: Helper, now: string)
    ensures HelperEntry(h, now).action in HelperActions
    ensures HelperEntry(h, now).action in DashboardUtils.ActionLabels
    ensures DashboardUtils.FormatActivityAction(HelperEntry(h, now).action)
      == DashboardUtils.ActionLabels[HelperEntry(h, now).action]
    ensures (set a | a in HelperActions) == DashboardUtils.ActionLabels.Keys
    ensures forall i, j :: 0 <= i < j < |HelperActions| ==> HelperActions[i] != HelperActions[j]
  {
    HelperActionsTable();
    var a := HelperEntry(h, now).action;
    assert a in HelperActions by {
      match h
      case LogLogin => assert a == HelperActions[0];
      case LogLogout => assert a == HelperActions[1];
      case LogPostCreated(_, _) => assert a == HelperActions[2];
      case LogPostUpdated(_, _) => assert a == HelperActions[3];
      case LogPostDeleted(_, _) => assert a == HelperActions[4];
      case LogSettingsUpdated(_) => assert a == HelperActions[5];
      case LogFileUploaded(_, _) => assert a == HelperActions[6];
    }
  }

  /** The helper actions and the labelled actions are the same seven strings. */
  lemma HelperActionsTable()
    ensures (set a | a in HelperActions) == DashboardUtils.ActionLabels.Keys
    ensures forall i, j :: 0 <= i < j < |HelperActions| ==> HelperActions[i] != HelperActions[j]
  {
    var labelled := DashboardUtils.ActionLabels.Keys;
    assert forall k :: k in labelled ==> k in HelperActions;
    assert forall i :: 0 <= i < |HelperActions| ==> HelperActions[i] in labelled;
  }

  // `updateLastLogin`.

  datatype UpdateRun = UpdateRun(success: bool, error: Option<ProviderError>, calls: seq<Call>)

  /** `updateError` is the error of the update. No user: `{success: false}`
      without an error and without an update. */
  function UpdateLastLogin(now: string, currentUser: Option<User>, updateError: Option<ProviderError>): (r: UpdateRun)
    ensures |r.calls| >= 1 && r.calls[0] == GetUser(None)
    ensures currentUser.None? ==> !r.success && r.error.None? && |r.calls| == 1
    ensures currentUser.Some? ==> r.calls == [GetUser(None), UpdateLastLoginAt(currentUser.value.id, now)]
    ensures r.success <==> currentUser.Some? && updateError.None?
    ensures currentUser.Some? ==> r.error == updateError
  {
    if currentUser.None? then UpdateRun(false, None, [GetUser(None)])
    else
      var calls := [GetUser(None), UpdateLastLoginAt(currentUser.value.id, now)];
      if updateError.Some? then UpdateRun(false, updateError, calls)
      else UpdateRun(true, None, calls)
  }

  /** The `last_login_at` column of `admin_profiles`, by row id. */
  type Profiles = map<string, string>

  /** The effect of the provider calls on `admin_profiles`; `.eq('id', …)`
      matches no row when the id is absent. */
  function ApplyUpdates(profiles: Profiles, calls: seq<Call>): Profiles {
    if calls == [] then profiles
    else
      var next :=
        if calls[0].UpdateLastLoginAt? && calls[0].profileId in profiles then profiles[calls[0].profileId := calls[0].at]
        else profiles;
      ApplyUpdates(next, calls[1..])
  }

  /** The table after `updateLastLogin`: the update takes effect only when
      the provider reports no error for it. */
  function ProfilesAfterLogin(profiles: Profiles, now: string, currentUser: Option<User>,
                              updateError: Option<ProviderError>): Profiles {
    var run := UpdateLastLogin(now, currentUser, updateError);
    if updateError.None? then ApplyUpdates(profiles, run.calls) else profiles
  }

  /** Only the user's own profile row is stamped, only when the update
      succeeds, and no row is created. */
  lemma {:induction false} UpdateLastLoginTouchesOwnRow(profiles: Profiles, now: string, currentUser: Option<User>,
                                     updateError: Option<ProviderError>)
    ensures var after := ProfilesAfterLogin(profiles, now, currentUser, updateError);
      && after.Keys == profiles.Keys
      && (forall id :: id in profiles && (currentUser.None? || id != currentUser.value.id) ==> after[id] == profiles[id])
      && (currentUser.Some? && updateError.None? && currentUser.value.id in profiles ==>
            after[currentUser.value.id] == now)
      // A failed update leaves the table as it was.
      && (updateError.Some? ==> after == profiles)
    // The table changes only when `updateLastLogin` reports success.
    ensures ProfilesAfterLogin(profiles, now, currentUser, updateError) != profiles ==>
      UpdateLastLogin(now, currentUser, updateError).success
  {
    var calls := UpdateLastLogin(now, currentUser, updateError).calls;
    assert ApplyUpdates(profiles, calls) == ApplyUpdates(profiles, calls[1..]);
    if currentUser.None? {
      assert calls[1..] == [];
    } else {
      var id := currentUser.value.id;
      var stamped := if id in profiles then profiles[id := now] else profiles;
      assert calls[1..][1..] == [];
      assert ApplyUpdates(profiles, calls[1..]) == ApplyUpdates(stamped, []);
    }
  }
}

=== FILE: dashboard.dfy ===
/** The dashboard's two display helpers: the label of an activity action,
    and the "time ago" text of an activity's age. The age is given as elapsed
    milliseconds; the locale date string shown for old entries is opaque. */
module DashboardUtils {
  import opened Text

  /** The label of each known action. */
  const ActionLabels: map<string, string> := map[
    "user_login" := "Logged in",
    "user_logout" := "Logged out",
    "post_created" := "Created post",
    "post_updated" := "Updated post",
    "post_deleted" := "Deleted post",
    "settings_updated" := "Updated settings",
    "file_uploaded" := "Uploaded file"]

  /** The label of a known action; any other action is shown as it is. */
  function FormatActivityAction(action: string): (r: string)
    ensures action in ActionLabels ==> r == ActionLabels[action]
    ensures action !in ActionLabels ==> r == action
  {
    if action in ActionLabels && ActionLabels[action] != "" then ActionLabels[action] else action
  }

  lemma {:induction false} ActionLabelExamples()
    ensures FormatActivityAction("user_login") == "Logged in"
    ensures FormatActivityAction("post_created") == "Created post"
    ensures FormatActivityAction("file_uploaded") == "Uploaded file"
    ensures FormatActivityAction("unknown_action") == "unknown_action"
  {
  }

  // Time ago.

  const SecondsPerMinute := 60
  const SecondsPerHour := 60 * 60
  const SecondsPerDay := 24 * 60 * 60
  const SecondsPerWeek := 7 * 24 * 60 * 60

  /** The bucket an age falls into, with its whole count of units. */
  datatype TimeAgo = JustNow | MinutesAgo(minutes: nat) | HoursAgo(hours: nat) | DaysAgo(days: nat) | OlderThanWeek

  /** The nested floors of the source agree with flooring by the whole unit. */
  lemma {:induction false} NestedFloors(seconds: int)
    requires seconds >= 0
    ensures seconds / 60 / 60 == seconds / SecondsPerHour
    ensures seconds / 60 / 60 / 24 == seconds / SecondsPerDay
  {
  }

  /** `Math.floor` of elapsed milliseconds over 1000, then the nested floors
      of the source: minutes, hours, days. */
  function ClassifyAge(elapsedMs: int): (b: TimeAgo)
    ensures var s := elapsedMs / 1000;
      && (b == JustNow <==> s < SecondsPerMinute)
      && (b.MinutesAgo? <==> SecondsPerMinute <= s < SecondsPerHour)
      && (b.HoursAgo? <==> SecondsPerHour <= s < SecondsPerDay)
      && (b.DaysAgo? <==> SecondsPerDay <= s < SecondsPerWeek)
      && (b == OlderThanWeek <==> SecondsPerWeek <= s)
      && (b.MinutesAgo? ==> b.minutes == s / SecondsPerMinute && 1 <= b.minutes < 60)
      && (b.HoursAgo? ==> b.hours == s / SecondsPerHour && 1 <= b.hours < 24)
      && (b.DaysAgo? ==> b.days == s / SecondsPerDay && 1 <= b.days < 7)
  {
    var seconds := elapsedMs / 1000;
    if seconds < 60 then JustNow
    else
      var minutes := seconds / 60;
      NestedFloors(seconds);
      if minutes < 60 then MinutesAgo(minutes)
      else
        var hours := minutes / 60;
        if hours < 24 then HoursAgo(hours)
        else
          var days := hours / 24;
          if days < 7 then DaysAgo(days) else OlderThanWeek
  }

  /** "s" after a count above one. */
  function Plural(n: nat): string {
    if n > 1 then "s" else ""
  }

  /** The text after the count of a counted bucket. */
  function UnitText(b: TimeAgo): string {
    match b
    case MinutesAgo(_) => " min ago"
    case HoursAgo(h) => " hour" + Plural(h) + " ago"
    case DaysAgo(d) => " day" + Plural(d) + " ago"
    case _ => ""
  }

  function Render(b: TimeAgo, localeDate: string): string {
    match b
    case JustNow => "just now"
    case OlderThanWeek => localeDate
    case _ => NatToString(Count(b)) + UnitText(b)
  }

  /** The text shown for an activity `elapsedMs` milliseconds old; `localeDate`
      is the activity's `toLocaleDateString()`. */
  function FormatTimeAgo(elapsedMs: int, localeDate: string): (r: string)
    ensures elapsedMs / 1000 < 60 ==> r == "just now"
    ensures var s := elapsedMs / 1000;
      SecondsPerMinute <= s < SecondsPerHour ==> r == NatToString(s / SecondsPerMinute) + " min ago"
    ensures var s := elapsedMs / 1000;
      SecondsPerHour <= s < SecondsPerDay ==>
        r == NatToString(s / SecondsPerHour) + " hour" + (if s / SecondsPerHour > 1 then "s" else "") + " ago"
    ensures var s := elapsedMs / 1000;
      SecondsPerDay <= s < SecondsPerWeek ==>
        r == NatToString(s / SecondsPerDay) + " day" + (if s / SecondsPerDay > 1 then "s" else "") + " ago"
    ensures elapsedMs / 1000 >= SecondsPerWeek ==> r == localeDate
  {
    Render(ClassifyAge(elapsedMs), localeDate)
  }

  /** The order of the units: a larger rank is a coarser unit. */
  function Rank(b: TimeAgo): nat {
    match b
    case JustNow => 0
    case MinutesAgo(_) => 1
    case HoursAgo(_) => 2
    case DaysAgo(_) => 3
    case OlderThanWeek => 4
  }

  function Count(b: TimeAgo): nat {
    match b
    case MinutesAgo(m) => m
    case HoursAgo(h) => h
    case DaysAgo(d) => d
    case _ => 0
  }

  /** An older activity never shows a finer unit, nor a smaller count of the same unit. */
  lemma {:induction false} ClassifyAgeMonotonic(e1: int, e2: int)
    requires e1 <= e2
    ensures Rank(ClassifyAge(e1)) <= Rank(ClassifyAge(e2))
    ensures Rank(ClassifyAge(e1)) == Rank(ClassifyAge(e2)) ==> Count(ClassifyAge(e1)) <= Count(ClassifyAge(e2))
  {
  }

  /** A counted bucket reads as its count then its unit; hours and days take the plural above one. */
  lemma {:induction false} SingularAndPlural(b: TimeAgo, localeDate: string)
    requires b.MinutesAgo? || b.HoursAgo? || b.DaysAgo?
    ensures Render(b, localeDate) == NatToString(Count(b)) + UnitText(b)
    ensures b.MinutesAgo? ==> UnitText(b) == " min ago"
    ensures b.HoursAgo? ==> UnitText(b) == (if b.hours <= 1 then " hour ago" else " hours ago")
    ensures b.DaysAgo? ==> UnitText(b) == (if b.days <= 1 then " day ago" else " days ago")
  {
  }

  /** The number of leading decimal digits. */
  function DigitPrefixLen(s: string): (n: nat)
    ensures n <= |s|
    ensures forall i :: 0 <= i < n ==> IsDigit(s[i])
    ensures n < |s| ==> !IsDigit(s[n])
  {
    if s != [] && IsDigit(s[0]) then 1 + DigitPrefixLen(s[1..]) else 0
  }

  lemma {:induction false} DigitPrefixLenAppend(d: string, t: string)
    requires AllDigits(d) && |t| > 0 && !IsDigit(t[0])
    ensures DigitPrefixLen(d + t) == |d|
  {
    if d == [] {
      assert d + t == t;
    } else {
      assert (d + t)[0] == d[0] && (d + t)[1..] == d[1..] + t;
      DigitPrefixLenAppend(d[1..], t);
    }
  }

  /** Within the last week, the text shown determines the bucket and its
      count: two ages read the same exactly when they classify the same. */
  lemma {:induction false} FormatTimeAgoDeterminesBucket(e1: int, e2: int, localeDate: string)
    requires e1 / 1000 < SecondsPerWeek && e2 / 1000 < SecondsPerWeek
    ensures FormatTimeAgo(e1, localeDate) == FormatTimeAgo(e2, localeDate) <==> ClassifyAge(e1) == ClassifyAge(e2)
  {
    var b1, b2 := ClassifyAge(e1), ClassifyAge(e2);
    if FormatTimeAgo(e1, localeDate) == FormatTimeAgo(e2, localeDate) {
      RenderInjective(b1, b2, localeDate);
    }
  }

  /** Apart from the locale date, distinct buckets render distinct texts. */
  lemma {:induction false} RenderInjective(b1: TimeAgo, b2: TimeAgo, localeDate: string)
    requires b1 != OlderThanWeek && b2 != OlderThanWeek
    requires Render(b1, localeDate) == Render(b2, localeDate)
    ensures b1 == b2
  {
    var r1, r2 := Render(b1, localeDate), Render(b2, localeDate);
    var d1, d2 := NatToString(Count(b1)), NatToString(Count(b2));
    assert DigitPrefixLen("just now") == 0;
    if b1 != JustNow {
      DigitPrefixLenAppend(d1, UnitText(b1));
    }
    if b2 != JustNow {
      DigitPrefixLenAppend(d2, UnitText(b2));
    }
    if b1 != JustNow && b2 != JustNow {
      assert |d1| == |d2|;
      assert d1 == r1[..|d1|] && d2 == r2[..|d2|];
      NatToStringInjective(Count(b1), Count(b2));
      assert UnitText(b1) == r1[|d1|..] && UnitText(b2) == r2[|d2|..];
      assert UnitText(b1)[1] == UnitText(b2)[1];
    }
  }

  lemma {:induction false} FormatTimeAgoExamples(localeDate: string)
    ensures FormatTimeAgo(30 * 1000, localeDate) == "just now"
    ensures FormatTimeAgo(-5 * 1000, localeDate) == "just now"
    ensures FormatTimeAgo(5 * 60 * 1000, localeDate) == "5 min ago"
    ensures FormatTimeAgo(2 * 60 * 60 * 1000, localeDate) == "2 hours ago"
    ensures FormatTimeAgo(3 * 24 * 60 * 60 * 1000, localeDate) == "3 days ago"
    ensures FormatTimeAgo(10 * 24 * 60 * 60 * 1000, localeDate) == localeDate
  {
    assert FormatTimeAgo(30 * 1000, localeDate) == "just now";
    assert FormatTimeAgo(-5 * 1000, localeDate) == "just now";
    assert FormatTimeAgo(5 * 60 * 1000, localeDate) == "5 min ago";
    assert FormatTimeAgo(2 * 60 * 60 * 1000, localeDate) == "2 hours ago";
    assert FormatTimeAgo(3 * 24 * 60 * 60 * 1000, localeDate) == "3 days ago";
  }
}

=== FILE: http.dfy ===
/** The request/response vocabulary shared by the session guard and the two
    auth endpoints: the two session cookies and their attributes, the cookie
    jar a request carries, the secure-flag rule and a handler's result. */
module Http {
  import opened Text
  import opened Provider

  const AccessCookie := "sb-access-token"
  const RefreshCookie := "sb-refresh-token"
  const LoginPath := "/login"

  /** One week, in seconds. */
  const SessionMaxAge := 60 * 60 * 24 * 7

  /** The request facts the secure-flag rule reads. `protocol` is the URL's
      scheme with its colon, as `URL.protocol` gives it. */
  datatype Env = Env(production: bool, forwardedProto: Option<string>, protocol: string)

  /** Cookies are marked secure in production, behind a proxy that forwarded
      https, or when the request itself came over https. */
  predicate IsSecure(env: Env) {
    env.production || env.forwardedProto == Some("https") || env.protocol == "https:"
  }

  /** `httpOnly` false stands for the attribute being left out. */
  datatype CookieAttrs = CookieAttrs(path: string, maxAge: int, sameSite: string, secure: bool, httpOnly: bool)

  datatype CookieEffect =
    | SetCookie(name: string, value: string, attrs: CookieAttrs)
    | DeleteCookie(name: string, path: string)

  datatype Body = SuccessBody | ErrorBody(message: string)

  /** `Next(None)` passes the request on without assigning `locals.user`. */
  datatype Outcome =
    | Next(user: Option<User>)
    | Redirect(location: string)
    | Response(status: int, body: Body)

  /** What a handler decides. In every handler all provider calls precede all
      cookie writes, so the two ordered lists lose no interleaving. */
  datatype HandlerResult = HandlerResult(outcome: Outcome, cookies: seq<CookieEffect>, calls: seq<Call>)

  /** The cookies a request carries, by name. */
  type Jar = map<string, string>

  /** `cookies.get(name)?.value`. */
  function CookieValue(jar: Jar, name: string): (r: Option<string>)
    ensures r.Some? <==> name in jar
    ensures r.Some? ==> r.value == jar[name]
  {
    if name in jar then Some(jar[name]) else None
  }

  /** Both session cookies are present and non-empty. */
  predicate HasSession(jar: Jar) {
    Truthy(CookieValue(jar, AccessCookie)) && Truthy(CookieValue(jar, RefreshCookie))
  }

  function ApplyOne(jar: Jar, effect: CookieEffect): Jar {
    match effect
    case SetCookie(n, v, _) => jar[n := v]
    case DeleteCookie(n, _) => jar - {n}
  }

  /** The jar the browser holds after the response's cookie effects. */
  function Apply(jar: Jar, effects: seq<CookieEffect>): Jar
    decreases |effects|
  {
    if effects == [] then jar else Apply(ApplyOne(jar, effects[0]), effects[1..])
  }

  /** Session cookies are written in pairs: nothing, both set with the same
      attributes (access first), or both deleted on path `/`. */
  predicate PairedCookies(effects: seq<CookieEffect>) {
    || effects == []
    || (&& |effects| == 2
        && effects[0].SetCookie? && effects[0].name == AccessCookie
        && effects[1].SetCookie? && effects[1].name == RefreshCookie
        && effects[0].attrs == effects[1].attrs)
    || effects == [DeleteCookie(AccessCookie, "/"), DeleteCookie(RefreshCookie, "/")]
  }

  /** The jar holds both session cookies or neither. */
  predicate Coherent(jar: Jar) {
    (AccessCookie in jar) <==> (RefreshCookie in jar)
  }

  /** Applying a paired write either leaves the jar alone or makes it coherent. */
  lemma {:induction false} PairedCookiesKeepCoherence(jar: Jar, effects: seq<CookieEffect>)
    requires PairedCookies(effects)
    ensures effects == [] ==> Apply(jar, effects) == jar
    ensures effects != [] ==> Coherent(Apply(jar, effects))
    ensures effects != [] && effects[0].SetCookie? ==>
      && CookieValue(Apply(jar, effects), AccessCookie) == Some(effects[0].value)
      && CookieValue(Apply(jar, effects), RefreshCookie) == Some(effects[1].value)
    ensures effects != [] && effects[0].DeleteCookie? ==>
      AccessCookie !in Apply(jar, effects) && RefreshCookie !in Apply(jar, effects)
  {
    if effects != [] {
      assert AccessCookie[3] != RefreshCookie[3];
      var j1 := ApplyOne(jar, effects[0]);
      var j2 := ApplyOne(j1, effects[1]);
      assert effects[1..][0] == effects[1] && effects[1..][1..] == [];
      assert Apply(j2, []) == j2;
      assert Apply(j1, effects[1..]) == j2;
      assert Apply(jar, effects) == j2;
    }
  }
}

=== FILE: login.dfy ===
/** The session-create endpoint (`POST /api/auth/login`): passes the body's
    email and password to the provider's password sign-in and turns its reply
    into a 401 with the provider's message, a 401 for a reply without a
    session (unconfirmed email), or a 200 that sets both session cookies. */
module Login {
  import opened Text
  import opened Provider
  import opened Http

  const UnconfirmedMessage := "No session provided. Please check if your email is confirmed."

  /** Attributes of the cookies a sign-in sets. */
  function LoginCookieAttrs(env: Env): CookieAttrs {
    CookieAttrs("/", SessionMaxAge, "lax", IsSecure(env), true)
  }

  /** `email` and `password` are the parsed request body; no validation is done. */
  function Post(env: Env, email: string, password: string, reply: SignInReply): (r: HandlerResult)
    // Exactly one provider call, with the credentials unchanged.
    ensures r.calls == [SignInWithPassword(email, password)]
    ensures r.outcome.Response?
    ensures r.outcome.status == 200 || r.outcome.status == 401
    // Cookies are set exactly when the sign-in produced a session and no error.
    ensures r.cookies != [] <==> reply.error.None? && reply.session.Some?
    ensures r.outcome.status == 200 <==> r.cookies != []
    ensures PairedCookies(r.cookies)
    // The provider's error takes precedence over a missing session.
    ensures reply.error.Some? ==> r.outcome.body == ErrorBody(reply.error.value.message)
  {
    var calls := [SignInWithPassword(email, password)];
    if reply.error.Some? then
      HandlerResult(Response(401, ErrorBody(reply.error.value.message)), [], calls)
    else if reply.session.None? then
      HandlerResult(Response(401, ErrorBody(UnconfirmedMessage)), [], calls)
    else
      var attrs := LoginCookieAttrs(env);
      var session := reply.session.value;
      HandlerResult(
        Response(200, SuccessBody),
        [ SetCookie(AccessCookie, session.accessToken, attrs),
          SetCookie(RefreshCookie, session.refreshToken, attrs)],
        calls)
  }

  /** A provider error is a 401 carrying its message, with no cookie, even
      when the reply also lacks a session. */
  lemma {:induction false} ProviderErrorIs401(env: Env, email: string, password: string, reply: SignInReply)
    requires reply.error.Some?
    ensures var r := Post(env, email, password, reply);
      r.outcome == Response(401, ErrorBody(reply.error.value.message)) && r.cookies == []
  {
  }

  /** No error and no session: the fixed confirmation message, no cookie. */
  lemma {:induction false} MissingSessionIs401(env: Env, email: string, password: string, reply: SignInReply)
    requires reply.error.None? && reply.session.None?
    ensures var r := Post(env, email, password, reply);
      r.outcome == Response(401, ErrorBody(UnconfirmedMessage)) && r.cookies == []
  {
  }

  /** The unconfirmed-account reply can be told apart from a bad-credentials
      reply by its message whenever the provider's message differs from it. */
  lemma {:induction false} UnconfirmedDistinguishable(env: Env, email: string, password: string, bad: SignInReply, unconfirmed: SignInReply)
    requires bad.error.Some? && bad.error.value.message != UnconfirmedMessage
    requires unconfirmed.error.None? && unconfirmed.session.None?
    ensures Post(env, email, password, bad).outcome != Post(env, email, password, unconfirmed).outcome
  {
  }

  /** A session: 200 `{success: true}` and exactly two cookies, access then
      refresh, holding the session's tokens with identical attributes
      (path `/`, httpOnly, SameSite lax, one week, the shared secure rule). */
  lemma {:induction false} SessionSetsBothCookies(env: Env, email: string, password: string, reply: SignInReply)
    requires reply.error.None? && reply.session.Some?
    ensures var r := Post(env, email, password, reply);
      && r.outcome == Response(200, SuccessBody)
      && |r.cookies| == 2
      && r.cookies[0] == SetCookie(AccessCookie, reply.session.value.accessToken, r.cookies[0].attrs)
      && r.cookies[1] == SetCookie(RefreshCookie, reply.session.value.refreshToken, r.cookies[0].attrs)
      && r.cookies[0].attrs == CookieAttrs("/", 604800, "lax", r.cookies[0].attrs.secure, true)
      && (r.cookies[0].attrs.secure <==>
            env.production || env.forwardedProto == Some("https") || env.protocol == "https:")
  {
  }
}

=== FILE: logout.dfy ===
/** The session-destroy endpoint (`POST /api/auth/logout`): re-binds the
    provider session from the cookies when both are present, writes an audit
    row for the current user, signs out, always deletes both cookies, and
    answers 500 on a sign-out error or redirects to the login page. */
module Logout {
  import opened Text
  import opened Provider
  import opened Http

  /** The audit row the endpoint inserts itself; it carries no `resource_id`. */
  function LogoutRecord(user: User): ActivityRecord {
    ActivityRecord(user.id, "user_logout", Some("auth"), None, Some(map["email" := Str(user.email)]))
  }

  /** `currentUser` is what `getUser()` returns after the optional re-bind;
      `signOutError` is the error `signOut` reports. The replies of
      `setSession` and of the insert are not read by the source. */
  function Post(jar: Jar, currentUser: Option<User>, signOutError: Option<ProviderError>): (r: HandlerResult)
    // Cookies are deleted whatever the provider says.
    ensures r.cookies == [DeleteCookie(AccessCookie, "/"), DeleteCookie(RefreshCookie, "/")]
    ensures 2 <= |r.calls| <= 4
    // The session is re-bound first exactly when both cookies are present.
    ensures r.calls[0].SetSession? <==> HasSession(jar)
    // Sign-out is the last call, and the only one of its kind.
    ensures r.calls[|r.calls| - 1] == SignOut
    ensures forall i :: 0 <= i < |r.calls| - 1 ==> r.calls[i] != SignOut
    // A sign-out error is a 500 with its message; otherwise the login redirect.
    ensures signOutError.Some? ==> r.outcome == Response(500, ErrorBody(signOutError.value.message))
    ensures signOutError.None? ==> r.outcome == Redirect(LoginPath)
  {
    var accessToken := CookieValue(jar, AccessCookie);
    var refreshToken := CookieValue(jar, RefreshCookie);
    var rebind :=
      if Truthy(accessToken) && Truthy(refreshToken) then [SetSession(accessToken.value, refreshToken.value)]
      else [];
    var audit := if currentUser.Some? then [InsertActivity(LogoutRecord(currentUser.value))] else [];
    var calls := rebind + [GetUser(None)] + audit + [SignOut];
    var cookies := [DeleteCookie(AccessCookie, "/"), DeleteCookie(RefreshCookie, "/")];
    if signOutError.Some? then
      HandlerResult(Response(500, ErrorBody(signOutError.value.message)), cookies, calls)
    else
      HandlerResult(Redirect(LoginPath), cookies, calls)
  }

  /** The complete call order: re-bind (if both cookies), current user,
      audit insert (if a user), sign-out. */
  lemma {:induction false} CallOrder(jar: Jar, currentUser: Option<User>, signOutError: Option<ProviderError>)
    ensures var r := Post(jar, currentUser, signOutError);
      r.calls ==
        (if HasSession(jar) then [SetSession(jar[AccessCookie], jar[RefreshCookie])] else [])
        + [GetUser(None)]
        + (if currentUser.Some? then [InsertActivity(LogoutRecord(currentUser.value))] else [])
        + [SignOut]
  {
  }

  /** `setSession` receives exactly the two cookie values. */
  lemma {:induction false} RebindUsesCookieValues(jar: Jar, currentUser: Option<User>, signOutError: Option<ProviderError>)
    requires HasSession(jar)
    ensures Post(jar, currentUser, signOutError).calls[0] == SetSession(jar[AccessCookie], jar[RefreshCookie])
  {
  }

  /** An audit row is written exactly when a user is known, with that user's
      id, action `user_logout`, resource type `auth` and the email in metadata. */
  lemma {:induction false} AuditRowIffUser(jar: Jar, currentUser: Option<User>, signOutError: Option<ProviderError>)
    ensures var r := Post(jar, currentUser, signOutError);
      (exists i :: 0 <= i < |r.calls| && r.calls[i].InsertActivity?) <==> currentUser.Some?
    ensures var r := Post(jar, currentUser, signOutError);
      forall i :: 0 <= i < |r.calls| && r.calls[i].InsertActivity? ==>
        && r.calls[i].record.userId == currentUser.value.id
        && r.calls[i].record.action == "user_logout"
        && r.calls[i].record.resourceType == Some("auth")
        && r.calls[i].record.metadata == Some(map["email" := Str(currentUser.value.email)])
  {
    var r := Post(jar, currentUser, signOutError);
    var k := if HasSession(jar) then 1 else 0;
    if currentUser.Some? {
      assert r.calls[k + 1].InsertActivity?;
    }
  }

  /** Logging out with no cookies still signs out once and redirects. */
  lemma {:induction false} LogoutWithoutCookies(currentUser: Option<User>)
    ensures var r := Post(map[], currentUser, None);
      && r.outcome == Redirect(LoginPath)
      && !r.calls[0].SetSession?
      && r.calls[|r.calls| - 1] == SignOut
  {
  }
}

=== FILE: middleware.dfy ===
/** The admin session guard (`onRequest`): decides for each request whether
    the path is protected, and if so checks the two session cookies, verifies
    the access token, tries one refresh on failure, and rewrites or clears the
    cookies accordingly. Provider replies are parameters; a reply whose call
    the guard does not make is simply never looked at. */
module Middleware {
  import opened Text
  import opened Provider
  import opened Http

  /** `/admin` itself or anything below `/admin/`. */
  predicate IsAdminRoute(path: string) {
    path == "/admin" || StartsWith(path, "/admin/")
  }

  /** `getUser` vouches for the token: no error and a user. */
  predicate VerifyOk(reply: UserReply) {
    reply.error.None? && reply.user.Some?
  }

  /** `refreshSession` produced a usable session: no error, a user and a session. */
  predicate RefreshOk(reply: RefreshReply) {
    reply.error.None? && reply.user.Some? && reply.session.Some?
  }

  /** Attributes of the cookies the guard rewrites after a refresh; unlike the
      login endpoint it does not mark them httpOnly. */
  function RefreshCookieAttrs(env: Env): CookieAttrs {
    CookieAttrs("/", SessionMaxAge, "lax", IsSecure(env), false)
  }

  /** The provider calls the guard makes, in order, once both cookies are present. */
  function GuardCalls(jar: Jar, verify: UserReply): seq<Call> {
    var verifyCall := GetUser(CookieValue(jar, AccessCookie));
    if VerifyOk(verify) then [verifyCall]
    else [verifyCall, RefreshSession(CookieValue(jar, RefreshCookie).GetOr(""))]
  }

  function OnRequest(env: Env, path: string, jar: Jar, verify: UserReply, refresh: RefreshReply): (r: HandlerResult)
    // Cookies are written in pairs or not at all.
    ensures PairedCookies(r.cookies)
    // The request either proceeds or is sent to the login page.
    ensures r.outcome.Next? || r.outcome == Redirect(LoginPath)
    // Proceeding means an unprotected path, or a session the provider accepted.
    ensures r.outcome.Next? <==>
      (!IsAdminRoute(path) || (HasSession(jar) && (VerifyOk(verify) || RefreshOk(refresh))))
    // Only a protected request carrying both cookies reaches the provider.
    ensures r.calls != [] <==> IsAdminRoute(path) && HasSession(jar)
    ensures r.calls != [] ==> r.calls == GuardCalls(jar, verify)
    // Cookies change only after a failed verification.
    ensures r.cookies != [] ==> |r.calls| == 2
    // Rewritten cookies go with proceeding, deleted ones with the redirect.
    ensures r.cookies != [] ==> (r.cookies[0].SetCookie? <==> r.outcome.Next?)
  {
    if !IsAdminRoute(path) then
      HandlerResult(Next(None), [], [])
    else
      var accessToken := CookieValue(jar, AccessCookie);
      var refreshToken := CookieValue(jar, RefreshCookie);
      if !Truthy(accessToken) || !Truthy(refreshToken) then
        HandlerResult(Redirect(LoginPath), [], [])
      else if VerifyOk(verify) then
        HandlerResult(Next(verify.user), [], GuardCalls(jar, verify))
      else if !RefreshOk(refresh) then
        HandlerResult(
          Redirect(LoginPath),
          [DeleteCookie(AccessCookie, "/"), DeleteCookie(RefreshCookie, "/")],
          GuardCalls(jar, verify))
      else
        var attrs := RefreshCookieAttrs(env);
        HandlerResult(
          Next(refresh.user),
          [ SetCookie(AccessCookie, refresh.session.value.accessToken, attrs),
            SetCookie(RefreshCookie, refresh.session.value.refreshToken, attrs)],
          GuardCalls(jar, verify))
  }

  /** Route classification: exact `/admin` and paths under `/admin/` only. */
  lemma {:induction false} AdminRouteExamples()
    ensures IsAdminRoute("/admin")
    ensures IsAdminRoute("/admin/posts/new")
    ensures !IsAdminRoute("/administrator")
    ensures !IsAdminRoute("/")
    ensures !IsAdminRoute("/admi")
  {
    assert "/admin/posts/new"[..7] == "/admin/";
    assert "/administrator"[..7] != "/admin/" by { assert "/administrator"[6] == 'i'; }
  }

  /** A path that merely begins with `/admin` but continues with anything
      other than `/` is not protected. */
  lemma {:induction false} NoPartialPrefixMatch(path: string)
    requires StartsWith(path, "/admin") && |path| > 6 && path[6] != '/'
    ensures !IsAdminRoute(path)
  {
  }

  /** An unprotected path passes through untouched: no provider call, no cookie, no user. */
  lemma {:induction false} UnprotectedPassesThrough(env: Env, path: string, jar: Jar, verify: UserReply, refresh: RefreshReply)
    requires !IsAdminRoute(path)
    ensures OnRequest(env, path, jar, verify, refresh) == HandlerResult(Next(None), [], [])
  {
  }

  /** A protected path without both cookies is redirected before any provider
      call, and a lone surviving cookie is left in place. */
  lemma {:induction false} MissingCookieRedirects(env: Env, path: string, jar: Jar, verify: UserReply, refresh: RefreshReply)
    requires IsAdminRoute(path) && !HasSession(jar)
    ensures OnRequest(env, path, jar, verify, refresh) == HandlerResult(Redirect(LoginPath), [], [])
  {
  }

  /** A valid access token: the verified user proceeds, refresh is never tried
      and no cookie is written. */
  lemma {:induction false} ValidTokenProceeds(env: Env, path: string, jar: Jar, verify: UserReply, refresh: RefreshReply)
    requires IsAdminRoute(path) && HasSession(jar) && VerifyOk(verify)
    ensures OnRequest(env, path, jar, verify, refresh) ==
      HandlerResult(Next(verify.user), [], [GetUser(Some(jar[AccessCookie]))])
  {
  }

  /** Refresh is tried only after verification failed, exactly once, with the
      refresh cookie's value. */
  lemma {:induction false} RefreshOnlyAfterFailedVerify(env: Env, path: string, jar: Jar, verify: UserReply, refresh: RefreshReply)
    ensures var r := OnRequest(env, path, jar, verify, refresh);
      (exists i :: 0 <= i < |r.calls| && r.calls[i].RefreshSession?) <==>
        (IsAdminRoute(path) && HasSession(jar) && !VerifyOk(verify))
    ensures var r := OnRequest(env, path, jar, verify, refresh);
      IsAdminRoute(path) && HasSession(jar) && !VerifyOk(verify) ==>
        r.calls == [GetUser(Some(jar[AccessCookie])), RefreshSession(jar[RefreshCookie])]
  {
    var r := OnRequest(env, path, jar, verify, refresh);
    if IsAdminRoute(path) && HasSession(jar) && !VerifyOk(verify) {
      assert r.calls[1].RefreshSession?;
    } else {
      assert forall i :: 0 <= i < |r.calls| ==> r.calls[i].GetUser?;
    }
  }

  /** A failed refresh (an error, no user or no session) deletes both cookies
      on path `/` and redirects to the login page. */
  lemma {:induction false} FailedRefreshClearsBoth(env: Env, path: string, jar: Jar, verify: UserReply, refresh: RefreshReply)
    requires IsAdminRoute(path) && HasSession(jar) && !VerifyOk(verify) && !RefreshOk(refresh)
    ensures var r := OnRequest(env, path, jar, verify, refresh);
      && r.outcome == Redirect(LoginPath)
      && r.cookies == [DeleteCookie(AccessCookie, "/"), DeleteCookie(RefreshCookie, "/")]
  {
  }

  /** A successful refresh rewrites both cookies with the new session's
      tokens and identical attributes, and the refreshed user proceeds. */
  lemma {:induction false} RefreshRewritesBoth(env: Env, path: string, jar: Jar, verify: UserReply, refresh: RefreshReply)
    requires IsAdminRoute(path) && HasSession(jar) && !VerifyOk(verify) && RefreshOk(refresh)
    ensures var r := OnRequest(env, path, jar, verify, refresh);
      && r.outcome == Next(refresh.user)
      && |r.cookies| == 2
      && r.cookies[0] == SetCookie(AccessCookie, refresh.session.value.accessToken, r.cookies[0].attrs)
      && r.cookies[1] == SetCookie(RefreshCookie, refresh.session.value.refreshToken, r.cookies[0].attrs)
      && r.cookies[0].attrs.path == "/"
      && r.cookies[0].attrs.maxAge == 604800
      && r.cookies[0].attrs.sameSite == "lax"
      && (r.cookies[0].attrs.secure <==>
            env.production || env.forwardedProto == Some("https") || env.protocol == "https:")
  {
  }
}

=== FILE: posteditor.dfy ===
/** The decision rules of the post editor: save validation, the saved payload
    (`published` and `published_at`), cover-image validation, the slug that
    follows the title until it is edited by hand, and what a save reports and
    where a new post redirects. The editor is a state machine over events;
    `now` stands for `new Date().toISOString()`, an opaque timestamp. */
module PostEditor {
  import opened Text
  import opened PostUtils
  import opened SlugSteps
  import ActivityLogger
  import Middleware

  /** `formData`. */
  datatype Form = Form(title: string, slug: string, excerpt: string, content: string,
                       coverImage: string, published: bool)

  const EmptyForm := Form("", "", "", "", "", false)

  /** The banner above the form; `NoNotice` is `{type: '', text: ''}`. */
  datatype Notice = NoNotice | ErrorNotice(text: string) | SuccessNotice(text: string)

  /** A post row as `getPostById` returns it; absent columns are null. */
  datatype PostData = PostData(title: Option<string>, slug: Option<string>, excerpt: Option<string>,
                               content: Option<string>, coverImage: Option<string>,
                               published: Option<bool>, publishedAt: Option<string>)

  /** The component's state. `postId` is the prop: present when editing. */
  datatype Editor = Editor(postId: Option<string>, form: Form, slugManual: bool,
                           original: Option<PostData>, notice: Notice)

  function Init(postId: Option<string>): Editor {
    Editor(postId, EmptyForm, false, None, NoNotice)
  }

  // Save validation.

  const TitleRequired := "Title is required"
  const SlugRequired := "Slug is required"

  /** The first failing check, title before slug; None when the form may be saved. */
  function SaveError(form: Form): (r: Option<string>)
    ensures r == Some(TitleRequired) <==> Trim(form.title) == ""
    ensures r == Some(SlugRequired) <==> Trim(form.title) != "" && Trim(form.slug) == ""
    ensures r.None? <==> Trim(form.title) != "" && Trim(form.slug) != ""
  {
    if Trim(form.title) == "" then Some(TitleRequired)
    else if Trim(form.slug) == "" then Some(SlugRequired)
    else None
  }

  // The payload.

  /** `postData`: the form as typed (untrimmed) with `published` and `published_at` decided. */
  datatype Payload = Payload(form: Form, publishedAt: Option<string>)

  /** `published_at` of the loaded post; None when nothing was loaded. */
  function OriginalPublishedAt(original: Option<PostData>): Option<string> {
    if original.Some? then original.value.publishedAt else None
  }

  /** `publish` is true for the Publish button, false for Save. */
  function BuildPayload(form: Form, publish: bool, original: Option<PostData>, now: string): (p: Payload)
    ensures p.form.published == (publish || form.published)
    ensures p.form == form.(published := publish || form.published)
    ensures p.publishedAt.None? <==> !publish && !form.published
    ensures p.publishedAt.Some? && Truthy(OriginalPublishedAt(original)) ==> p.publishedAt == OriginalPublishedAt(original)
    ensures p.publishedAt.Some? && !Truthy(OriginalPublishedAt(original)) ==> p.publishedAt == Some(now)
  {
    var published := publish || form.published;
    var at :=
      if !published then None
      else if Truthy(OriginalPublishedAt(original)) then OriginalPublishedAt(original)
      else Some(now);
    Payload(form.(published := published), at)
  }

  /** A saved post is published exactly when it carries a publication time,
      and re-saving a published post keeps its first publication time. */
  lemma {:induction false} PublishedAtFollowsPublished(form: Form, publish: bool, original: Option<PostData>, now: string, later: string)
    ensures var p := BuildPayload(form, publish, original, now);
      p.form.published <==> p.publishedAt.Some?
    ensures var p := BuildPayload(form, publish, original, now);
      var reloaded := Some(PostData(Some(p.form.title), Some(p.form.slug), Some(p.form.excerpt),
                                    Some(p.form.content), Some(p.form.coverImage),
                                    Some(p.form.published), p.publishedAt));
      p.form.published && Truthy(p.publishedAt) ==>
        BuildPayload(p.form, true, reloaded, later).publishedAt == p.publishedAt
  {
  }

  // Cover-image validation.

  /** The picked file's MIME type and size in bytes. */
  datatype FileInfo = FileInfo(mimeType: string, size: int)

  const MaxImageBytes := 5 * 1024 * 1024
  const NotAnImage := "Please select an image file"
  const ImageTooLarge := "Image must be less than 5MB"

  datatype ImageCheck = NoFile | ImageRejected(message: string) | ImageAccepted

  function CheckImage(file: Option<FileInfo>): (r: ImageCheck)
    ensures r == NoFile <==> file.None?
    ensures r == ImageRejected(NotAnImage) <==> file.Some? && !StartsWith(file.value.mimeType, "image/")
    ensures r == ImageRejected(ImageTooLarge) <==>
      file.Some? && StartsWith(file.value.mimeType, "image/") && file.value.size > MaxImageBytes
    ensures r == ImageAccepted <==>
      file.Some? && StartsWith(file.value.mimeType, "image/") && file.value.size <= MaxImageBytes
  {
    if file.None? then NoFile
    else if !StartsWith(file.value.mimeType, "image/") then ImageRejected(NotAnImage)
    else if file.value.size > MaxImageBytes then ImageRejected(ImageTooLarge)
    else ImageAccepted
  }

  /** The limit is inclusive: exactly 5 MiB passes, one byte more does not. */
  lemma {:induction false} ImageSizeBoundary(mimeType: string)
    requires StartsWith(mimeType, "image/")
    ensures CheckImage(Some(FileInfo(mimeType, 5242880))) == ImageAccepted
    ensures CheckImage(Some(FileInfo(mimeType, 5242881))) == ImageRejected(ImageTooLarge)
  {
  }

  /** The reply of `uploadCoverImage`. */
  datatype UploadReply = Uploaded(url: string) | UploadFailed(error: Option<string>)

  datatype UploadStep = UploadStep(editor: Editor, uploadCalled: bool)

  /** `handleImageUpload`: validation first, then the upload; only the cover
      field and the banner change. */
  function HandleImageUpload(e: Editor, file: Option<FileInfo>, reply: UploadReply): (r: UploadStep)
    ensures r.uploadCalled <==> CheckImage(file) == ImageAccepted
    ensures r.editor.form.(coverImage := e.form.coverImage) == e.form
    ensures r.editor.(form := e.form, notice := e.notice) == e
    ensures r.editor.form.coverImage != e.form.coverImage ==> r.uploadCalled && reply == Uploaded(r.editor.form.coverImage)
    ensures CheckImage(file).ImageRejected? ==> r.editor.notice == ErrorNotice(CheckImage(file).message)
    // No file: nothing happens at all.
    ensures file.None? ==> r.editor == e
    // An accepted upload sets the cover to the returned URL and says so.
    ensures CheckImage(file) == ImageAccepted && reply.Uploaded? ==>
      r.editor.form.coverImage == reply.url && r.editor.notice == SuccessNotice("Image uploaded successfully")
    // A failed upload keeps the form and shows the provider's error or the fallback.
    ensures CheckImage(file) == ImageAccepted && reply.UploadFailed? ==>
      r.editor.form == e.form
      && r.editor.notice == ErrorNotice(if Truthy(reply.error) then reply.error.value else "Failed to upload image")
  {
    match CheckImage(file)
    case NoFile => UploadStep(e, false)
    case ImageRejected(msg) => UploadStep(e.(notice := ErrorNotice(msg)), false)
    case ImageAccepted =>
      match reply
      case Uploaded(url) =>
        UploadStep(e.(form := e.form.(coverImage := url), notice := SuccessNotice("Image uploaded successfully")), true)
      case UploadFailed(err) =>
        var text := if Truthy(err) then err.value else "Failed to upload image";
        UploadStep(e.(notice := ErrorNotice(text)), true)
  }

  /** Once a file is picked, the banner reads success exactly when the
      upload ran and succeeded, and then the cover is the uploaded URL. */
  lemma {:induction false} UploadBannerMatchesCover(e: Editor, file: Option<FileInfo>, reply: UploadReply)
    ensures var r := HandleImageUpload(e, file, reply);
      file.Some? ==> (r.editor.notice.SuccessNotice? <==> r.uploadCalled && reply.Uploaded?)
    ensures var r := HandleImageUpload(e, file, reply);
      r.uploadCalled && reply.Uploaded? ==> r.editor.form.coverImage == reply.url
  {
  }

  // Events and the slug effect.

  datatype Event =
    | EditTitle(title: string)
    | EditSlug(slug: string)
    | EditExcerpt(excerpt: string)
    | EditContent(content: string)
    | SetPublished(checked: bool)
    | Loaded(data: PostData)          // `getPostById` succeeded with data
    | LoadFailed
    | PickCover(file: Option<FileInfo>, reply: UploadReply)
    | RemoveCover

  /** The state change an event makes before effects run. */
  function Handle(e: Editor, ev: Event): Editor {
    match ev
    case EditTitle(v) => e.(form := e.form.(title := v))
    case EditSlug(v) => e.(form := e.form.(slug := v), slugManual := true)
    case EditExcerpt(v) => e.(form := e.form.(excerpt := v))
    case EditContent(v) => e.(form := e.form.(content := v))
    case SetPublished(checked) => e.(form := e.form.(published := checked))
    case Loaded(d) =>
      e.(form := Form(d.title.GetOr(""), d.slug.GetOr(""), d.excerpt.GetOr(""), d.content.GetOr(""),
                      d.coverImage.GetOr(""), d.published.GetOr(false)),
         original := Some(d), slugManual := true)
    case LoadFailed => e.(notice := ErrorNotice("Failed to load post"))
    case PickCover(file, reply) => HandleImageUpload(e, file, reply).editor
    case RemoveCover => e.(form := e.form.(coverImage := ""))
  }

  /** The slug effect: it runs when the title or the manual flag changed, and
      then, unless the slug was edited by hand, derives the slug from a
      non-empty title. */
  function SlugEffect(before: Editor, after: Editor): (r: Editor)
    ensures r.(form := r.form.(slug := after.form.slug)) == after
    ensures r.form.slug != after.form.slug ==> !after.slugManual
  {
    var triggered := after.form.title != before.form.title || after.slugManual != before.slugManual;
    if triggered && !after.slugManual && after.form.title != "" then
      after.(form := after.form.(slug := GenerateSlug(Some(after.form.title))))
    else after
  }

  function Step(e: Editor, ev: Event): Editor {
    SlugEffect(e, Handle(e, ev))
  }

  function Run(e: Editor, events: seq<Event>): Editor
    decreases |events|
  {
    if events == [] then e else Run(Step(e, events[0]), events[1..])
  }

  /** While the slug is not edited by hand and the title is non-empty, the
      slug is the title's slug. */
  predicate Tracking(e: Editor) {
    !e.slugManual && e.form.title != "" ==> e.form.slug == GenerateSlug(Some(e.form.title))
  }

  /** Events other than title edits, slug edits and loads leave the title,
      the slug and the manual flag alone. */
  lemma {:induction false} HandleKeepsSlugFields(e: Editor, ev: Event)
    requires !ev.EditTitle? && !ev.EditSlug? && !ev.Loaded?
    ensures var a := Handle(e, ev);
      a.form.title == e.form.title && a.form.slug == e.form.slug && a.slugManual == e.slugManual
  {
    match ev
    case PickCover(file, reply) =>
      var r := HandleImageUpload(e, file, reply);
      assert r.editor.form.title == e.form.title by {
        assert r.editor.form.(coverImage := e.form.coverImage).title == r.editor.form.title;
      }
      assert r.editor.form.slug == e.form.slug by {
        assert r.editor.form.(coverImage := e.form.coverImage).slug == r.editor.form.slug;
      }
      assert r.editor.slugManual == e.slugManual by {
        assert r.editor.(form := e.form, notice := e.notice).slugManual == r.editor.slugManual;
      }
    case _ =>
  }

  lemma {:induction false} StepKeepsTracking(e: Editor, ev: Event)
    requires Tracking(e)
    ensures Tracking(Step(e, ev))
  {
    var a := Handle(e, ev);
    if ev.EditTitle? || ev.EditSlug? || ev.Loaded? {
      assert a.form.title == e.form.title && a.slugManual == e.slugManual && !a.slugManual
        ==> a.form.slug == e.form.slug;
    } else {
      HandleKeepsSlugFields(e, ev);
    }
    SlugEffectTracks(e, a);
  }

  /** The slug effect leaves a tracking state when it starts from one. */
  lemma {:induction false} SlugEffectTracks(before: Editor, after: Editor)
    requires Tracking(before)
    requires after.form.title == before.form.title && after.slugManual == before.slugManual && !after.slugManual
      ==> after.form.slug == before.form.slug
    ensures Tracking(SlugEffect(before, after))
  {
  }

  /** Every state the editor reaches keeps the slug tracking the title. */
  lemma {:induction false} RunKeepsTracking(e: Editor, events: seq<Event>)
    requires Tracking(e)
    ensures Tracking(Run(e, events))
    decreases |events|
  {
    if events != [] {
      StepKeepsTracking(e, events[0]);
      RunKeepsTracking(Step(e, events[0]), events[1..]);
    }
  }

  lemma {:induction false} ReachableTracks(postId: Option<string>, events: seq<Event>)
    ensures Tracking(Run(Init(postId), events))
  {
    RunKeepsTracking(Init(postId), events);
  }

  /** The manual flag is set only by editing the slug or loading a post, and
      is never cleared. */
  lemma {:induction false} ManualFlag(e: Editor, ev: Event)
    ensures e.slugManual ==> Step(e, ev).slugManual
    ensures Step(e, ev).slugManual && !e.slugManual ==> ev.EditSlug? || ev.Loaded?
  {
    var a := Handle(e, ev);
    if !ev.EditTitle? && !ev.EditSlug? && !ev.Loaded? {
      HandleKeepsSlugFields(e, ev);
    }
    assert Step(e, ev).slugManual == a.slugManual by {
      var r := SlugEffect(e, a);
      assert r.(form := r.form.(slug := a.form.slug)).slugManual == r.slugManual;
    }
  }

  /** Once the flag is set, only editing the slug or loading a post changes it. */
  lemma {:induction false} ManualSlugIsKept(e: Editor, ev: Event)
    requires e.slugManual && !ev.EditSlug? && !ev.Loaded?
    ensures Step(e, ev).form.slug == e.form.slug
  {
    if !ev.EditTitle? {
      HandleKeepsSlugFields(e, ev);
    }
    assert Step(e, ev) == Handle(e, ev);
  }

  lemma {:induction false} ManualSlugIsKeptOverRun(e: Editor, events: seq<Event>)
    requires e.slugManual
    requires forall i :: 0 <= i < |events| ==> !events[i].EditSlug? && !events[i].Loaded?
    ensures Run(e, events).form.slug == e.form.slug && Run(e, events).slugManual
    decreases |events|
  {
    if events != [] {
      ManualSlugIsKept(e, events[0]);
      ManualFlag(e, events[0]);
      ManualSlugIsKeptOverRun(Step(e, events[0]), events[1..]);
    }
  }

  /** Before any hand edit, typing a title sets the slug to its slug. */
  lemma {:induction false} TitleEditDerivesSlug(e: Editor, title: string)
    requires Tracking(e) && !e.slugManual && title != ""
    ensures Step(e, EditTitle(title)).form.slug == GenerateSlug(Some(title))
  {
  }

  // Saving.

  /** A post row as `createPost` returns it. */
  datatype PostRow = PostRow(id: string, slug: string)

  /** The reply of `createPost` or `updatePost`. */
  datatype WriteReply = WriteOk(row: PostRow) | WriteFailed(error: Option<string>)

  datatype WriteCall = CreatePost(payload: Payload) | UpdatePost(postId: string, payload: Payload)

  /** What a save does: the write it asks for, the log helper it runs after a
      successful write, the banner, and the page a new post redirects to. */
  datatype SaveOutcome = SaveOutcome(write: Option<WriteCall>, log: Option<ActivityLogger.Helper>,
                                     notice: Notice, redirect: Option<string>)

  const PostsPrefix := "/posts/"
  const EditPrefix := "/admin/posts/edit/"

  /** Where a new post goes: its public page when published, else its edit page. */
  function CreatedRedirect(published: bool, row: PostRow): (target: string)
    ensures StartsWith(target, PostsPrefix) <==> published
    ensures StartsWith(target, EditPrefix) <==> !published
  {
    var target := if published then PostsPrefix + row.slug else EditPrefix + row.id;
    assert target[..|PostsPrefix|] == PostsPrefix <==> published by {
      assert target[1] == (if published then 'p' else 'a');
    }
    assert StartsWith(target, EditPrefix) <==> !published by {
      assert target[1] == (if published then 'p' else 'a');
    }
    target
  }

  /** The redirect target gives back the slug or the id it was built from;
      a draft lands on a page behind the admin guard. */
  lemma {:induction false} CreatedRedirectRoundTrip(published: bool, row: PostRow)
    ensures published ==> CreatedRedirect(published, row)[|PostsPrefix|..] == row.slug
    ensures !published ==> CreatedRedirect(published, row)[|EditPrefix|..] == row.id
    ensures !published ==> Middleware.IsAdminRoute(CreatedRedirect(published, row))
  {
  }

  /** `handleSave(publish)`; `reply` is what the write returns. */
  function HandleSave(e: Editor, publish: bool, now: string, reply: WriteReply): (r: SaveOutcome)
    // An invalid form writes nothing and only reports the first failing check.
    ensures SaveError(e.form).Some? ==>
      r == SaveOutcome(None, None, ErrorNotice(SaveError(e.form).value), None)
    // A valid form is written once, updating when editing and creating otherwise.
    ensures SaveError(e.form).None? ==>
      && r.write.Some?
      && (Truthy(e.postId) <==> r.write.value.UpdatePost?)
      && r.write.value.payload == BuildPayload(e.form, publish, e.original, now)
    // A log row and a success banner exactly after a successful write.
    ensures r.log.Some? <==> r.write.Some? && reply.WriteOk?
    ensures r.notice.SuccessNotice? <==> r.log.Some?
    ensures r.log.Some? && Truthy(e.postId) ==>
      r.log == Some(ActivityLogger.LogPostUpdated(e.postId.value, e.form.title))
    ensures r.log.Some? && !Truthy(e.postId) ==>
      r.log == Some(ActivityLogger.LogPostCreated(reply.row.id, e.form.title))
    // Only a created post redirects.
    ensures r.redirect.Some? <==> r.log.Some? && !Truthy(e.postId)
    ensures r.redirect.Some? ==>
      r.redirect == Some(CreatedRedirect(publish || e.form.published, reply.row))
    // A failed write reports the reply's error, or a fixed text without one.
    ensures r.write.Some? && reply.WriteFailed? ==>
      r.notice == ErrorNotice(if Truthy(reply.error) then reply.error.value else "Failed to save post")
  {
    match SaveError(e.form)
    case Some(msg) => SaveOutcome(None, None, ErrorNotice(msg), None)
    case None =>
      var payload := BuildPayload(e.form, publish, e.original, now);
      var write := if Truthy(e.postId) then UpdatePost(e.postId.value, payload) else CreatePost(payload);
      match reply
      case WriteFailed(err) =>
        var text := if Truthy(err) then err.value else "Failed to save post";
        SaveOutcome(Some(write), None, ErrorNotice(text), None)
      case WriteOk(row) =>
        if Truthy(e.postId) then
          SaveOutcome(Some(write), Some(ActivityLogger.LogPostUpdated(e.postId.value, e.form.title)),
                      SuccessNotice("Post updated successfully!"), None)
        else
          SaveOutcome(Some(write), Some(ActivityLogger.LogPostCreated(row.id, e.form.title)),
                      SuccessNotice("Post created successfully!"),
                      Some(CreatedRedirect(payload.form.published, row)))
  }

  /** A blank title is reported before a blank slug, whatever the slug holds. */
  lemma {:induction false} TitleCheckedFirst(e: Editor, publish: bool, now: string, reply: WriteReply)
    requires Trim(e.form.title) == ""
    ensures HandleSave(e, publish, now, reply) == SaveOutcome(None, None, ErrorNotice(TitleRequired), None)
  {
  }

  /** A title with a word character is not blank and neither is its slug, so a form
      whose slug is the title's generated slug passes both save checks. */
  lemma {:induction false} TrackedSlugPassesValidation(form: Form)
    requires WordChars(form.title) != [] && form.slug == GenerateSlug(Some(form.title))
    ensures SaveError(form).None?
  {
    WordCharsTrim(form.title);
    assert Trim(form.title) != "" by {
      assert WordChars(Trim(form.title)) != [];
    }
    SlugOfWordsNotBlank(form.slug, WordChars(form.title));
  }

  /** A slug whose hyphens hide at least one word character is not blank. */
  lemma {:induction false} SlugOfWordsNotBlank(s: string, w: string)
    requires IsSlug(s) && Unhyphenated(s) == LowerAll(w) && w != []
    ensures Trim(s) != ""
  {
  }
}

=== FILE: postutils.dfy ===
/** `generateSlug` and the storage-path extraction of `deleteCoverImage`.
    The CRUD wrappers around the database are not part of this model. */
module PostUtils {
  import opened Text
  import opened SlugSteps

  /** The title after lowercasing, trimming and dropping special characters. */
  function Cleaned(title: string): string {
    RemoveSpecial(Trim(LowerAll(title)))
  }

  /** Steps 4 to 6: white-space runs to hyphens, hyphen runs collapsed, edge hyphens dropped. */
  function Hyphenated(cleaned: string): string {
    StripEdgeHyphens(CollapseHyphens(HyphenateSpaces(cleaned)))
  }

  /** The URL-friendly slug of a title; an absent or empty title gives "". */
  function GenerateSlug(title: Option<string>): (r: string)
    ensures !Truthy(title) ==> r == ""
    // Only `[a-z0-9_-]`, no `--`, no hyphen at either end.
    ensures IsSlug(r)
    // Deleting the hyphens leaves the title's word characters, lowercased, in order.
    ensures Unhyphenated(r) == LowerAll(WordChars(title.GetOr("")))
    // The words of the lowercased, filtered title, joined by single hyphens.
    ensures r == Join(Words(RemoveSpecial(LowerAll(title.GetOr("")))))
  {
    if !Truthy(title) then
      EmptyTitleHasNoWords();
      ""
    else
      HyphenatedFacts(title.value);
      HyphenatedSpellsWords(title.value);
      Hyphenated(Cleaned(title.value))
  }

  lemma {:induction false} EmptyTitleHasNoWords()
    ensures Join(Words(RemoveSpecial(LowerAll("")))) == ""
  {
    assert LowerAll("") == "" && RemoveSpecial("") == "";
    assert Split("", IsSeparator) == [""] && [""][1..] == [];
    assert Words("") == [];
  }

  lemma {:induction false} HyphenatedFacts(t: string)
    ensures IsSlug(Hyphenated(Cleaned(t)))
    ensures Unhyphenated(Hyphenated(Cleaned(t))) == LowerAll(WordChars(t))
  {
    var c := Cleaned(t);
    var r := Hyphenated(c);
    assert NoUpper(c) by {
      var l := LowerAll(t);
      var s := TrimStart(l);
      assert NoUpper(s);
      assert TrimEnd(s) == s[..|TrimEnd(s)|];
    }
    assert WordChars(c) == LowerAll(WordChars(t)) by {
      WordCharsLowerAll(t);
      WordCharsTrim(LowerAll(t));
      WordCharsRemoveSpecial(Trim(LowerAll(t)));
    }
    assert WordChars(r) == WordChars(c) by {
      WordCharsHyphenateSpaces(c);
      WordCharsCollapseHyphens(HyphenateSpaces(c));
      WordCharsStripEdgeHyphens(CollapseHyphens(HyphenateSpaces(c)));
    }
    UnhyphenatedSlugChars(r);
  }

  /** A slug is its own slug. */
  lemma {:induction false} GenerateSlugIdempotent(title: Option<string>)
    ensures GenerateSlug(Some(GenerateSlug(title))) == GenerateSlug(title)
  {
    GenerateSlugOfSlug(GenerateSlug(title));
  }

  /** Every slug, taken as a title, gives itself back. */
  lemma {:induction false} GenerateSlugOfSlug(s: string)
    requires IsSlug(s)
    ensures GenerateSlug(Some(s)) == s
  {
    if s != "" {
      SlugIsClean(s);
      assert RemoveSpecial(LowerAll(s)) == s by {
        LowerAllIdentity(s);
        RemoveSpecialIdentity(s);
      }
      JoinWordsOfSlug(s);
    }
  }

  /** The slug pipeline spells the title's words, lowercased and with special
      characters dropped, joined by single hyphens: white space and hyphens
      only ever separate words, and every separating run becomes one hyphen. */
  lemma {:induction false} HyphenatedSpellsWords(title: string)
    ensures Words(Hyphenated(Cleaned(title))) == Words(RemoveSpecial(LowerAll(title)))
    ensures Hyphenated(Cleaned(title)) == Join(Words(RemoveSpecial(LowerAll(title))))
  {
    var c := Cleaned(title);
    var r := Hyphenated(c);
    WordsStripEdgeHyphens(CollapseHyphens(HyphenateSpaces(c)));
    WordsCollapseHyphens(HyphenateSpaces(c));
    WordsHyphenateSpaces(c);
    WordsTrimRemoveSpecial(LowerAll(title));
    HyphenatedFacts(title);
    JoinWordsOfSlug(r);
  }

  lemma {:induction false} CleanedSlug(s: string)
    requires IsSlug(s)
    ensures Cleaned(s) == s
  {
    SlugIsClean(s);
    LowerAllIdentity(s);
    TrimIdentity(s);
    RemoveSpecialIdentity(s);
  }

  lemma {:induction false} HyphenatedSlug(s: string)
    requires IsSlug(s)
    ensures Hyphenated(s) == s
  {
    SlugIsClean(s);
    HyphenateSpacesIdentity(s);
    CollapseHyphensIdentity(s);
    StripEdgeHyphensIdentity(s);
  }

  // Storage path of a cover image, from its public URL.

  const ImagesMarker := "/images/"

  /** `url.split('/images/')[1]`: the text after the first marker, up to the
      next marker or the end; absent when the URL holds no marker. */
  function CoverImagePath(url: string): (r: Option<string>)
    ensures r.None? <==> NoOccurrence(url, ImagesMarker)
    ensures r.Some? ==>
      var rest := url[IndexOf(url, ImagesMarker).value + |ImagesMarker|..];
      && StartsWith(rest, r.value)
      && NoOccurrence(r.value, ImagesMarker)
      // No marker of `rest` starts inside the path, even one overlapping its end.
      && (forall k :: 0 <= k < |r.value| ==> !OccursAt(rest, ImagesMarker, k))
      && (rest == r.value || StartsWith(rest[|r.value|..], ImagesMarker))
  {
    match IndexOf(url, ImagesMarker)
    case None => None
    case Some(i) =>
      var rest := url[i + |ImagesMarker|..];
      match IndexOf(rest, ImagesMarker)
      case None =>
        assert forall k :: 0 <= k <= |rest| - |ImagesMarker| ==> !OccursAt(rest, ImagesMarker, k);
        Some(rest)
      case Some(j) =>
        assert forall i :: 0 <= i < j ==> !OccursAt(rest, ImagesMarker, i);
        assert NoOccurrence(rest[..j], ImagesMarker) by {
          forall k | 0 <= k <= j - |ImagesMarker|
            ensures !OccursAt(rest[..j], ImagesMarker, k)
          {
            if OccursAt(rest[..j], ImagesMarker, k) {
              assert rest[..j][k..k + |ImagesMarker|] == rest[k..k + |ImagesMarker|];
              assert OccursAt(rest, ImagesMarker, k);
            }
          }
        }
        Some(rest[..j])
  }

  /** A public URL built as `<base>/images/<path>` gives back `<path>`, when no
      marker occurs in `path` and none ends inside the appended marker. */
  lemma {:induction false} CoverImagePathRoundTrip(base: string, path: string)
    requires NoOccurrence(base + ImagesMarker[..|ImagesMarker| - 1], ImagesMarker)
    requires NoOccurrence(path, ImagesMarker)
    ensures CoverImagePath(base + ImagesMarker + path) == Some(path)
  {
    var url := base + ImagesMarker + path;
    var head := base + ImagesMarker[..|ImagesMarker| - 1];
    assert OccursAt(url, ImagesMarker, |base|);
    forall i | 0 <= i < |base|
      ensures !OccursAt(url, ImagesMarker, i)
    {
      if OccursAt(url, ImagesMarker, i) {
        assert url[..|head|] == head;
        assert head[i..i + |ImagesMarker|] == url[i..i + |ImagesMarker|];
        assert OccursAt(head, ImagesMarker, i);
      }
    }
    assert IndexOf(url, ImagesMarker) == Some(|base|);
    assert url[|base| + |ImagesMarker|..] == path;
  }

  datatype DeleteResult = Deleted | DeleteFailed(message: string)

  /** The result of `deleteCoverImage` and the paths handed to the storage
      bucket's `remove` call (empty: no call). `storageError` is the error the
      bucket reports. */
  datatype DeleteOutcome = DeleteOutcome(result: DeleteResult, removed: seq<string>)

  function DeleteCoverImage(url: string, storageError: Option<string>): (r: DeleteOutcome)
    // A URL without the marker is rejected before storage is touched.
    ensures r.removed == [] <==> NoOccurrence(url, ImagesMarker)
    ensures r.removed == [] ==> r.result == DeleteFailed("Invalid image URL")
    // Otherwise exactly the extracted path is removed, and the bucket's verdict is reported.
    ensures r.removed != [] ==>
      && r.removed == [CoverImagePath(url).value]
      && (r.result == Deleted <==> storageError.None?)
      && (storageError.Some? ==> r.result == DeleteFailed(storageError.value))
  {
    match CoverImagePath(url)
    case None => DeleteOutcome(DeleteFailed("Invalid image URL"), [])
    case Some(path) =>
      if storageError.Some? then DeleteOutcome(DeleteFailed(storageError.value), [path])
      else DeleteOutcome(Deleted, [path])
  }
}

=== FILE: provider.dfy ===
/** The hosted identity/database provider, seen only through its replies and
    through the calls a handler makes to it. Nothing here verifies a token,
    rotates a session or stores a row: the replies are inputs to the model. */
module Provider {
  import opened Text

  /** The principal the provider returns; opaque beyond `id` and `email`. */
  datatype User = User(id: string, email: string)

  /** A credential pair issued by the provider. */
  datatype Session = Session(accessToken: string, refreshToken: string)

  datatype ProviderError = ProviderError(message: string)

  /** Reply of `auth.getUser`: `data.user` and `error`. */
  datatype UserReply = UserReply(user: Option<User>, error: Option<ProviderError>)

  /** Reply of `auth.refreshSession`: `data.user`, `data.session` and `error`. */
  datatype RefreshReply = RefreshReply(user: Option<User>, session: Option<Session>, error: Option<ProviderError>)

  /** Reply of `auth.signInWithPassword`: `data.session` and `error`. */
  datatype SignInReply = SignInReply(session: Option<Session>, error: Option<ProviderError>)

  /** A value inside an activity row's JSON `metadata`. */
  datatype MetaValue = Str(text: string) | Num(number: int)

  type Metadata = map<string, MetaValue>

  /** A row of the `activity_logs` table; absent optional fields are stored as null. */
  datatype ActivityRecord = ActivityRecord(
    userId: string,
    action: string,
    resourceType: Option<string>,
    resourceId: Option<string>,
    metadata: Option<Metadata>)

  /** One call made to the provider, in the order the handler makes it. */
  datatype Call =
    | GetUser(token: Option<string>)  // None: the client's current session
    | RefreshSession(refreshToken: string)
    | SignInWithPassword(email: string, password: string)
    | SetSession(accessToken: string, refreshToken: string)
    | InsertActivity(record: ActivityRecord)
    | UpdateLastLoginAt(profileId: string, at: string)  // `admin_profiles` rows whose id is `profileId`
    | SignOut
}

=== FILE: session_flow.dfy ===
/** The three session handlers seen together through the browser's cookie
    jar: none of them leaves one session cookie without the other, and a
    sign-in, a guarded visit, a refresh and a sign-out compose as intended. */
module SessionFlow {
  import opened Text
  import opened Provider
  import opened Http
  import Middleware
  import Login
  import Logout

  lemma {:induction false} GuardKeepsCoherence(env: Env, path: string, jar: Jar, verify: UserReply, refresh: RefreshReply)
    requires Coherent(jar)
    ensures Coherent(Apply(jar, Middleware.OnRequest(env, path, jar, verify, refresh).cookies))
  {
    PairedCookiesKeepCoherence(jar, Middleware.OnRequest(env, path, jar, verify, refresh).cookies);
  }

  lemma {:induction false} LoginKeepsCoherence(env: Env, email: string, password: string, jar: Jar, reply: SignInReply)
    requires Coherent(jar)
    ensures Coherent(Apply(jar, Login.Post(env, email, password, reply).cookies))
  {
    PairedCookiesKeepCoherence(jar, Login.Post(env, email, password, reply).cookies);
  }

  /** After a sign-out neither session cookie is left, so the guard turns
      every admin request away without asking the provider. */
  lemma {:induction false} LogoutEndsSession(env: Env, jar: Jar, currentUser: Option<User>, signOutError: Option<ProviderError>,
                          path: string, verify: UserReply, refresh: RefreshReply)
    requires Middleware.IsAdminRoute(path)
    ensures var after := Apply(jar, Logout.Post(jar, currentUser, signOutError).cookies);
      && AccessCookie !in after && RefreshCookie !in after
      && Middleware.OnRequest(env, path, after, verify, refresh) == HandlerResult(Redirect(LoginPath), [], [])
  {
    var after := Apply(jar, Logout.Post(jar, currentUser, signOutError).cookies);
    PairedCookiesKeepCoherence(jar, Logout.Post(jar, currentUser, signOutError).cookies);
    Middleware.MissingCookieRedirects(env, path, after, verify, refresh);
  }

  /** Sign in, open an admin page whose token verifies, sign out, open it again. */
  lemma {:induction false} SignInVisitSignOut(env: Env, email: string, password: string, session: Session, user: User,
                           jar: Jar, path: string, refresh: RefreshReply,
                           laterVerify: UserReply, laterRefresh: RefreshReply)
    requires session.accessToken != "" && session.refreshToken != ""
    requires Middleware.IsAdminRoute(path)
    ensures var signIn := Login.Post(env, email, password, SignInReply(Some(session), None));
      var signedIn := Apply(jar, signIn.cookies);
      var visit := Middleware.OnRequest(env, path, signedIn, UserReply(Some(user), None), refresh);
      var signOut := Logout.Post(signedIn, Some(user), None);
      var signedOut := Apply(signedIn, signOut.cookies);
      && HasSession(signedIn)
      && visit == HandlerResult(Next(Some(user)), [], [GetUser(Some(session.accessToken))])
      && signOut.calls[0] == SetSession(session.accessToken, session.refreshToken)
      && signOut.outcome == Redirect(LoginPath)
      && !HasSession(signedOut)
      && Middleware.OnRequest(env, path, signedOut, laterVerify, laterRefresh) ==
           HandlerResult(Redirect(LoginPath), [], [])
  {
    var signIn := Login.Post(env, email, password, SignInReply(Some(session), None));
    var signedIn := Apply(jar, signIn.cookies);
    PairedCookiesKeepCoherence(jar, signIn.cookies);
    Middleware.ValidTokenProceeds(env, path, signedIn, UserReply(Some(user), None), refresh);
    LogoutEndsSession(env, signedIn, Some(user), None, path, laterVerify, laterRefresh);
  }

  /** A refreshed session is the one the next request presents: the guard
      verifies the new access token, and sign-out re-binds the new pair. */
  lemma {:induction false} RefreshCarriesOver(env: Env, path: string, jar: Jar, verify: UserReply, refresh: RefreshReply,
                           nextVerify: UserReply, nextRefresh: RefreshReply, currentUser: Option<User>)
    requires Middleware.IsAdminRoute(path) && HasSession(jar)
    requires !Middleware.VerifyOk(verify) && Middleware.RefreshOk(refresh)
    requires refresh.session.value.accessToken != "" && refresh.session.value.refreshToken != ""
    ensures var renewed := refresh.session.value;
      var after := Apply(jar, Middleware.OnRequest(env, path, jar, verify, refresh).cookies);
      && HasSession(after)
      && Middleware.OnRequest(env, path, after, nextVerify, nextRefresh).calls[0] == GetUser(Some(renewed.accessToken))
      && Logout.Post(after, currentUser, None).calls[0] == SetSession(renewed.accessToken, renewed.refreshToken)
  {
    var r := Middleware.OnRequest(env, path, jar, verify, refresh);
    Middleware.RefreshRewritesBoth(env, path, jar, verify, refresh);
    PairedCookiesKeepCoherence(jar, r.cookies);
  }
}

=== FILE: slug_steps.dfy ===
/** The five rewriting steps of `generateSlug`, one function each, with what
    every step guarantees about the characters it leaves; and the facts the
    slug invariants are built from: the word characters survive every step,
    and every step is the identity on text already in slug form. */
module SlugSteps {
  import opened Text

  /** A character the special-character filter keeps: `[\w\s-]`. */
  predicate KeptChar(c: char) { IsWordChar(c) || IsSpace(c) || c == '-' }

  /** A character a slug may contain: `[a-z0-9_-]`. */
  predicate IsSlugChar(c: char) { IsLower(c) || IsDigit(c) || c == '_' || c == '-' }

  predicate NoUpper(s: string) { forall i :: 0 <= i < |s| ==> !IsUpper(s[i]) }
  predicate OnlyKept(s: string) { forall i :: 0 <= i < |s| ==> KeptChar(s[i]) }
  predicate SlugChars(s: string) { forall i :: 0 <= i < |s| ==> IsSlugChar(s[i]) }

  predicate NoDoubleHyphen(s: string) {
    forall i :: 0 < i < |s| ==> !(s[i - 1] == '-' && s[i] == '-')
  }

  /** The character-class predicates hold of a concatenation exactly when they
      hold of both parts. */
  lemma {:induction false} ClassesAppend(a: string, b: string)
    ensures NoSpace(a + b) <==> NoSpace(a) && NoSpace(b)
    ensures NoUpper(a + b) <==> NoUpper(a) && NoUpper(b)
    ensures OnlyKept(a + b) <==> OnlyKept(a) && OnlyKept(b)
    ensures SlugChars(a + b) <==> SlugChars(a) && SlugChars(b)
  {
    assert forall i :: 0 <= i < |a| ==> (a + b)[i] == a[i];
    assert forall i :: 0 <= i < |b| ==> (a + b)[|a| + i] == b[i];
  }

  lemma {:induction false} NoDoubleHyphenCons(c: char, x: string)
    requires NoDoubleHyphen(x)
    requires c == '-' ==> x == [] || x[0] != '-'
    ensures NoDoubleHyphen([c] + x)
  {
    assert forall i :: 0 < i < |x| + 1 ==> ([c] + x)[i] == x[i - 1];
  }

  predicate NoEdgeHyphen(s: string) {
    |s| > 0 ==> s[0] != '-' && s[|s| - 1] != '-'
  }

  /** The shape every generated slug has. */
  predicate IsSlug(s: string) {
    SlugChars(s) && NoDoubleHyphen(s) && NoEdgeHyphen(s)
  }

  /** The `[A-Za-z0-9_]` characters of `s`, in order. */
  function WordChars(s: string): string {
    if s == [] then [] else (if IsWordChar(s[0]) then [s[0]] else []) + WordChars(s[1..])
  }

  /** `s` with its hyphens deleted. */
  function Unhyphenated(s: string): string {
    if s == [] then [] else (if s[0] != '-' then [s[0]] else []) + Unhyphenated(s[1..])
  }

  // Step 1: `toLowerCase()`.
  function LowerAll(s: string): (r: string)
    ensures |r| == |s|
    ensures forall i :: 0 <= i < |s| ==> r[i] == LowerChar(s[i])
    ensures NoUpper(r)
  {
    if s == [] then [] else [LowerChar(s[0])] + LowerAll(s[1..])
  }

  // Step 2 is `Trim` of the Text module.

  // Step 3: `replace(/[^\w\s-]/g, '')`.
  function RemoveSpecial(s: string): (r: string)
    ensures OnlyKept(r)
    // Every kept character survives, as often as it occurs, in its order.
    ensures forall c :: KeptChar(c) ==> multiset(r)[c] == multiset(s)[c]
    ensures IsSubsequence(r, s)
    ensures NoUpper(s) ==> NoUpper(r)
    decreases |s|
  {
    if s == [] then []
    else
      var rest := RemoveSpecial(s[1..]);
      if KeptChar(s[0]) then
        RemoveSpecialKeepStep(s, rest);
        [s[0]] + rest
      else
        RemoveSpecialDropStep(s, rest);
        rest
  }

  /** What `RemoveSpecial` promises of `r` for the input `s`. */
  predicate FiltersSpecial(s: string, r: string) {
    && OnlyKept(r)
    && (forall c :: KeptChar(c) ==> multiset(r)[c] == multiset(s)[c])
    && IsSubsequence(r, s)
    && (NoUpper(s) ==> NoUpper(r))
  }

  /** A kept first character stays in front of the filtered rest. */
  lemma {:induction false} RemoveSpecialKeepStep(s: string, rest: string)
    requires s != [] && KeptChar(s[0]) && FiltersSpecial(s[1..], rest)
    ensures FiltersSpecial(s, [s[0]] + rest)
  {
    var r := [s[0]] + rest;
    assert s == [s[0]] + s[1..];
    assert multiset(r) == multiset{s[0]} + multiset(rest);
    assert multiset(s) == multiset{s[0]} + multiset(s[1..]);
    assert r[1..] == rest;
    ClassesAppend([s[0]], rest);
    ClassesAppend([s[0]], s[1..]);
  }

  /** A special first character is dropped. */
  lemma {:induction false} RemoveSpecialDropStep(s: string, rest: string)
    requires s != [] && !KeptChar(s[0]) && FiltersSpecial(s[1..], rest)
    ensures FiltersSpecial(s, rest)
  {
    assert s == [s[0]] + s[1..];
    assert multiset(s) == multiset{s[0]} + multiset(s[1..]);
    assert rest != [] ==> rest[0] != s[0];
    ClassesAppend([s[0]], s[1..]);
  }

  // Runs of separator characters, as `split` on `/x+/` and `join` see them.

  predicate IsHyphen(c: char) { c == '-' }

  /** The pieces of `s` between its maximal runs of `sep` characters, as
      `split` with such a run pattern returns them: a run at either end
      leaves an empty piece there, and no other piece is empty. */
  function Split(s: string, sep: char -> bool): (ps: seq<string>)
    ensures |ps| >= 1
    ensures ps[0] == "" <==> s == [] || sep(s[0])
    decreases |s|
  {
    if s == [] then [""]
    else
      var rest := Split(s[1..], sep);
      if !sep(s[0]) then [[s[0]] + rest[0]] + rest[1..]
      else if |s| > 1 && sep(s[1]) then rest
      else [""] + rest
  }

  /** The pieces with a hyphen between each two: `join('-')`. */
  function Join(ps: seq<string>): string {
    if ps == [] then "" else if |ps| == 1 then ps[0] else ps[0] + "-" + Join(ps[1..])
  }

  /** A leading run of `k` separators leaves one empty piece in front. */
  lemma {:induction false} SplitDropsRun(s: string, sep: char -> bool, k: nat)
    requires 1 <= k <= |s|
    requires forall i :: 0 <= i < k ==> sep(s[i])
    requires k == |s| || !sep(s[k])
    ensures Split(s, sep) == [""] + Split(s[k..], sep)
    ensures Join(Split(s, sep)) == "-" + Join(Split(s[k..], sep))
    decreases k
  {
    var rest := Split(s[k..], sep);
    assert Split(s, sep) == [""] + rest by {
      if k > 1 {
        assert sep(s[1]);
        assert s[1..][k - 1..] == s[k..];
        SplitDropsRun(s[1..], sep, k - 1);
      } else {
        assert s[1..] == s[k..];
      }
    }
    JoinCons("", rest);
    assert "" + "-" + Join(rest) == "-" + Join(rest);
  }

  /** The same, with the run's end given by what is left after it. */
  lemma {:induction false} SplitDropsRunTo(s: string, sep: char -> bool, u: string)
    requires s != [] && sep(s[0])
    requires |u| <= |s| - 1 && u == s[1..][|s| - 1 - |u|..]
    requires forall i :: 0 <= i < |s| - 1 - |u| ==> sep(s[1..][i])
    requires u == [] || !sep(u[0])
    ensures Join(Split(s, sep)) == "-" + Join(Split(u, sep))
  {
    var k := |s| - |u|;
    assert s[k..] == u;
    forall i | 1 <= i < k
      ensures sep(s[i])
    {
      assert s[i] == s[1..][i - 1];
    }
    SplitDropsRun(s, sep, k);
  }

  /** A character outside every run joins the first piece. */
  lemma {:induction false} SplitKeepsChar(s: string, sep: char -> bool)
    requires s != [] && !sep(s[0])
    ensures Join(Split(s, sep)) == [s[0]] + Join(Split(s[1..], sep))
  {
    var rest := Split(s[1..], sep);
    var ps := [[s[0]] + rest[0]] + rest[1..];
    assert Split(s, sep) == ps;
    if |rest| > 1 {
      assert ps[1..] == rest[1..];
    }
  }

  // Step 4: `replace(/\s+/g, '-')`.
  function HyphenateSpaces(s: string): (r: string)
    // Each maximal white-space run becomes one hyphen; all else is kept in order.
    ensures r == Join(Split(s, IsSpace))
    ensures NoSpace(r)
    ensures OnlyKept(s) && NoUpper(s) ==> SlugChars(r)
    decreases |s|
  {
    if s == [] then []
    else if IsSpace(s[0]) then
      var u := TrimStart(s[1..]);
      var rest := HyphenateSpaces(u);
      HyphenateRunStep(s, u, rest);
      "-" + rest
    else
      var rest := HyphenateSpaces(s[1..]);
      HyphenateKeepStep(s, rest);
      [s[0]] + rest
  }

  /** The white-space branch of `HyphenateSpaces`, with `u` standing for what
      follows the run and `rest` for the recursive result. */
  lemma {:induction false} HyphenateRunStep(s: string, u: string, rest: string)
    requires s != [] && IsSpace(s[0])
    requires |u| <= |s| - 1 && u == s[1..][|s| - 1 - |u|..]
    requires forall i :: 0 <= i < |s| - 1 - |u| ==> IsSpace(s[1..][i])
    requires u == [] || !IsSpace(u[0])
    requires rest == Join(Split(u, IsSpace)) && NoSpace(rest)
    requires OnlyKept(u) && NoUpper(u) ==> SlugChars(rest)
    ensures Join(Split(s, IsSpace)) == "-" + rest
    ensures NoSpace("-" + rest)
    ensures OnlyKept(s) && NoUpper(s) ==> SlugChars("-" + rest)
  {
    assert Join(Split(s, IsSpace)) == "-" + rest by {
      SplitDropsRunTo(s, IsSpace, u);
    }
    assert OnlyKept(s) && NoUpper(s) ==> OnlyKept(u) && NoUpper(u) by {
      var run := s[..|s| - |u|];
      assert s == run + u;
      ClassesAppend(run, u);
    }
    ClassesAppend("-", rest);
  }

  /** The branch of `HyphenateSpaces` that keeps a character. */
  lemma {:induction false} HyphenateKeepStep(s: string, rest: string)
    requires s != [] && !IsSpace(s[0])
    requires rest == Join(Split(s[1..], IsSpace)) && NoSpace(rest)
    requires OnlyKept(s[1..]) && NoUpper(s[1..]) ==> SlugChars(rest)
    ensures Join(Split(s, IsSpace)) == [s[0]] + rest
    ensures NoSpace([s[0]] + rest)
    ensures OnlyKept(s) && NoUpper(s) ==> SlugChars([s[0]] + rest)
  {
    SplitKeepsChar(s, IsSpace);
    assert s == [s[0]] + s[1..];
    ClassesAppend([s[0]], s[1..]);
    ClassesAppend([s[0]], rest);
  }

  /** Drops a leading run of hyphens. */
  function SkipHyphens(s: string): (r: string)
    ensures |r| <= |s| && r == s[|s| - |r|..]
    ensures |r| > 0 ==> r[0] != '-'
    ensures forall i :: 0 <= i < |s| - |r| ==> s[i] == '-'
  {
    if |s| > 0 && s[0] == '-' then SkipHyphens(s[1..]) else s
  }

  // Step 5: `replace(/-+/g, '-')`.
  function CollapseHyphens(s: string): (r: string)
    // Each maximal hyphen run becomes one hyphen; all else is kept in order.
    ensures r == Join(Split(s, IsHyphen))
    ensures NoDoubleHyphen(r)
    ensures (|r| > 0 && r[0] == '-') <==> (|s| > 0 && s[0] == '-')
    ensures SlugChars(s) ==> SlugChars(r)
    decreases |s|
  {
    if s == [] then []
    else if s[0] == '-' then
      var t := SkipHyphens(s[1..]);
      var rest := CollapseHyphens(t);
      CollapseRunStep(s, t, rest);
      "-" + rest
    else
      var rest := CollapseHyphens(s[1..]);
      CollapseKeepStep(s, rest);
      [s[0]] + rest
  }

  /** The hyphen-run branch of `CollapseHyphens`, with `rest` standing for
      the recursive result. */
  lemma {:induction false} CollapseRunStep(s: string, t: string, rest: string)
    requires s != [] && s[0] == '-'
    requires |t| <= |s| - 1 && t == s[1..][|s| - 1 - |t|..]
    requires forall i :: 0 <= i < |s| - 1 - |t| ==> IsHyphen(s[1..][i])
    requires t == [] || !IsHyphen(t[0])
    requires rest == Join(Split(t, IsHyphen)) && NoDoubleHyphen(rest)
    requires (|rest| > 0 && rest[0] == '-') <==> (|t| > 0 && t[0] == '-')
    requires SlugChars(t) ==> SlugChars(rest)
    ensures Join(Split(s, IsHyphen)) == "-" + rest
    ensures NoDoubleHyphen("-" + rest)
    ensures SlugChars(s) ==> SlugChars("-" + rest)
  {
    assert Join(Split(s, IsHyphen)) == "-" + rest by {
      SplitDropsRunTo(s, IsHyphen, t);
    }
    assert NoDoubleHyphen("-" + rest) by {
      NoDoubleHyphenCons('-', rest);
    }
    assert SlugChars(s) ==> SlugChars(t) by {
      var run := s[..|s| - |t|];
      assert s == run + t;
      ClassesAppend(run, t);
    }
    ClassesAppend("-", rest);
  }

  /** The branch of `CollapseHyphens` that keeps a character. */
  lemma {:induction false} CollapseKeepStep(s: string, rest: string)
    requires s != [] && s[0] != '-'
    requires rest == Join(Split(s[1..], IsHyphen)) && NoDoubleHyphen(rest)
    requires SlugChars(s[1..]) ==> SlugChars(rest)
    ensures Join(Split(s, IsHyphen)) == [s[0]] + rest
    ensures NoDoubleHyphen([s[0]] + rest)
    ensures SlugChars(s) ==> SlugChars([s[0]] + rest)
  {
    SplitKeepsChar(s, IsHyphen);
    NoDoubleHyphenCons(s[0], rest);
    assert s == [s[0]] + s[1..];
    ClassesAppend([s[0]], s[1..]);
    ClassesAppend([s[0]], rest);
  }

  // Step 6: `replace(/^-|-$/g, '')`: one leading and one trailing hyphen go.
  function StripEdgeHyphens(s: string): (r: string)
    // Exactly one leading hyphen goes when there is one, then exactly one
    // trailing hyphen when one is left; nothing else changes.
    ensures exists i, j ::
              && 0 <= i <= j <= |s| && r == s[i..j]
              && (i == 1 <==> |s| > 0 && s[0] == '-') && i <= 1
              && (j == |s| - 1 <==> i < |s| && s[|s| - 1] == '-') && |s| - 1 <= j
    ensures NoDoubleHyphen(s) ==> NoDoubleHyphen(r) && NoEdgeHyphen(r)
    ensures SlugChars(s) ==> SlugChars(r)
  {
    var i := if |s| > 0 && s[0] == '-' then 1 else 0;
    var t := s[i..];
    var r := if |t| > 0 && t[|t| - 1] == '-' then t[..|t| - 1] else t;
    var j := i + |r|;
    assert r == s[i..j];
    assert 0 <= i <= j <= |s| && r == s[i..j]
      && (i == 1 <==> |s| > 0 && s[0] == '-') && i <= 1
      && (j == |s| - 1 <==> i < |s| && s[|s| - 1] == '-') && |s| - 1 <= j;
    r
  }

  // Word characters survive every step.

  lemma {:induction false} WordCharsAppend(a: string, b: string)
    ensures WordChars(a + b) == WordChars(a) + WordChars(b)
  {
    if a == [] {
      assert a + b == b;
    } else {
      var ab := a + b;
      assert ab[0] == a[0] && ab[1..] == a[1..] + b;
      WordCharsAppend(a[1..], b);
      var w := if IsWordChar(a[0]) then [a[0]] else [];
      assert WordChars(ab) == w + WordChars(a[1..] + b);
      assert WordChars(a) == w + WordChars(a[1..]);
    }
  }

  lemma {:induction false} WordCharsLowerAll(s: string)
    ensures WordChars(LowerAll(s)) == LowerAll(WordChars(s))
  {
    if s != [] {
      WordCharsLowerAll(s[1..]);
      var w := if IsWordChar(s[0]) then [s[0]] else [];
      assert WordChars(s) == w + WordChars(s[1..]);
      assert LowerAll(w + WordChars(s[1..])) == LowerAll(w) + LowerAll(WordChars(s[1..])) by {
        LowerAllAppend(w, WordChars(s[1..]));
      }
      assert LowerAll(s)[1..] == LowerAll(s[1..]);
    }
  }

  lemma {:induction false} LowerAllAppend(a: string, b: string)
    ensures LowerAll(a + b) == LowerAll(a) + LowerAll(b)
  {
    if a == [] {
      assert a + b == b;
    } else {
      assert (a + b)[0] == a[0] && (a + b)[1..] == a[1..] + b;
      LowerAllAppend(a[1..], b);
    }
  }

  lemma {:induction false} WordCharsOfSpaces(s: string)
    requires forall i :: 0 <= i < |s| ==> !IsWordChar(s[i])
    ensures WordChars(s) == []
  {
    if s != [] {
      WordCharsOfSpaces(s[1..]);
    }
  }

  lemma {:induction false} WordCharsTrimStart(s: string)
    ensures WordChars(TrimStart(s)) == WordChars(s)
  {
    WordCharsDropRun(s, TrimStart(s));
  }

  /** Dropping a leading run without word characters keeps every word character. */
  lemma {:induction false} WordCharsDropRun(s: string, u: string)
    requires |u| <= |s| && u == s[|s| - |u|..]
    requires forall i :: 0 <= i < |s| - |u| ==> !IsWordChar(s[i])
    ensures WordChars(u) == WordChars(s)
  {
    var pre := s[..|s| - |u|];
    assert s == pre + u;
    WordCharsAppend(pre, u);
    forall i | 0 <= i < |pre|
      ensures !IsWordChar(pre[i])
    {
      assert pre[i] == s[i];
    }
    WordCharsOfSpaces(pre);
  }

  lemma {:induction false} WordCharsTrimEnd(s: string)
    ensures WordChars(TrimEnd(s)) == WordChars(s)
  {
    var u := TrimEnd(s);
    assert s == u + s[|u|..];
    WordCharsAppend(u, s[|u|..]);
    WordCharsOfSpaces(s[|u|..]);
  }

  lemma {:induction false} WordCharsTrim(s: string)
    ensures WordChars(Trim(s)) == WordChars(s)
  {
    WordCharsTrimStart(s);
    WordCharsTrimEnd(TrimStart(s));
  }

  lemma {:induction false} WordCharsRemoveSpecial(s: string)
    ensures WordChars(RemoveSpecial(s)) == WordChars(s)
  {
    if s != [] {
      WordCharsRemoveSpecial(s[1..]);
      var k := if KeptChar(s[0]) then [s[0]] else [];
      WordCharsAppend(k, RemoveSpecial(s[1..]));
    }
  }

  lemma {:induction false} WordCharsHyphenateSpaces(s: string)
    ensures WordChars(HyphenateSpaces(s)) == WordChars(s)
    decreases |s|
  {
    if s != [] {
      if IsSpace(s[0]) {
        var t := TrimStart(s[1..]);
        var h := HyphenateSpaces(t);
        WordCharsHyphenateSpaces(t);
        assert HyphenateSpaces(s) == "-" + h;
        assert WordChars("-" + h) == WordChars(h) by {
          WordCharsAppend("-", h);
        }
        WordCharsSkipSpaces(s);
      } else {
        var h := HyphenateSpaces(s[1..]);
        WordCharsHyphenateSpaces(s[1..]);
        assert HyphenateSpaces(s) == [s[0]] + h;
        WordCharsAppend([s[0]], h);
        assert WordChars(s) == WordChars([s[0]]) + WordChars(s[1..]) by {
          assert s == [s[0]] + s[1..];
          WordCharsAppend([s[0]], s[1..]);
        }
      }
    }
  }

  lemma {:induction false} WordCharsCollapseHyphens(s: string)
    ensures WordChars(CollapseHyphens(s)) == WordChars(s)
    decreases |s|
  {
    if s != [] {
      if s[0] == '-' {
        var t := SkipHyphens(s[1..]);
        var h := CollapseHyphens(t);
        WordCharsCollapseHyphens(t);
        assert CollapseHyphens(s) == "-" + h;
        assert WordChars("-" + h) == WordChars(h) by {
          WordCharsAppend("-", h);
        }
        WordCharsSkipHyphens(s);
      } else {
        var h := CollapseHyphens(s[1..]);
        WordCharsCollapseHyphens(s[1..]);
        assert CollapseHyphens(s) == [s[0]] + h;
        WordCharsAppend([s[0]], h);
        assert WordChars(s) == WordChars([s[0]]) + WordChars(s[1..]) by {
          assert s == [s[0]] + s[1..];
          WordCharsAppend([s[0]], s[1..]);
        }
      }
    }
  }

  lemma {:induction false} WordCharsSkipSpaces(s: string)
    requires s != [] && IsSpace(s[0])
    ensures WordChars(s) == WordChars(TrimStart(s[1..]))
  {
    var u := s[1..];
    var t := TrimStart(u);
    forall i | 0 <= i < |u| - |t|
      ensures !IsWordChar(u[i])
    {
      SpaceIsNoWordChar(u[i]);
    }
    SpaceIsNoWordChar(s[0]);
    WordCharsSkipRun(s, t);
  }

  lemma SpaceIsNoWordChar(c: char)
    requires IsSpace(c)
    ensures !IsWordChar(c)
  {
  }

  lemma {:induction false} WordCharsSkipHyphens(s: string)
    requires s != [] && s[0] == '-'
    ensures WordChars(s) == WordChars(SkipHyphens(s[1..]))
  {
    WordCharsSkipRun(s, SkipHyphens(s[1..]));
  }

  /** A leading run without word characters, ending where `t` starts, adds
      no word character. */
  lemma {:induction false} WordCharsSkipRun(s: string, t: string)
    requires s != [] && !IsWordChar(s[0])
    requires |t| <= |s| - 1 && t == s[1..][|s| - 1 - |t|..]
    requires forall i :: 0 <= i < |s| - 1 - |t| ==> !IsWordChar(s[1..][i])
    ensures WordChars(s) == WordChars(t)
  {
    var u := s[1..];
    assert t == s[|s| - |t|..] by {
      assert u[|u| - |t|..] == s[|s| - |t|..];
    }
    forall i | 0 <= i < |s| - |t|
      ensures !IsWordChar(s[i])
    {
      if i > 0 {
        assert s[i] == u[i - 1];
      }
    }
    WordCharsDropRun(s, t);
  }

  lemma {:induction false} WordCharsStripEdgeHyphens(s: string)
    ensures WordChars(StripEdgeHyphens(s)) == WordChars(s)
  {
    var t := if |s| > 0 && s[0] == '-' then s[1..] else s;
    if |s| > 0 && s[0] == '-' {
      assert s == "-" + t;
      WordCharsAppend("-", t);
    }
    if |t| > 0 && t[|t| - 1] == '-' {
      assert t == t[..|t| - 1] + "-";
      WordCharsAppend(t[..|t| - 1], "-");
    }
  }

  /** On slug characters, deleting hyphens leaves exactly the word characters. */
  lemma {:induction false} UnhyphenatedSlugChars(s: string)
    requires SlugChars(s)
    ensures Unhyphenated(s) == WordChars(s)
  {
    if s != [] {
      UnhyphenatedSlugChars(s[1..]);
    }
  }

  // Every step is the identity on slug-shaped text.

  lemma {:induction false} SlugIsClean(s: string)
    requires IsSlug(s)
    ensures NoUpper(s) && NoSpace(s) && OnlyKept(s)
  {
    assert forall i :: 0 <= i < |s| ==> IsSlugChar(s[i]);
  }

  lemma {:induction false} LowerAllIdentity(s: string)
    requires NoUpper(s)
    ensures LowerAll(s) == s
  {
    if s != [] {
      LowerAllIdentity(s[1..]);
    }
  }

  lemma {:induction false} TrimIdentity(s: string)
    requires NoSpace(s)
    ensures Trim(s) == s
  {
  }

  lemma {:induction false} RemoveSpecialIdentity(s: string)
    requires OnlyKept(s)
    ensures RemoveSpecial(s) == s
  {
    if s != [] {
      RemoveSpecialIdentity(s[1..]);
    }
  }

  lemma {:induction false} HyphenateSpacesIdentity(s: string)
    requires NoSpace(s)
    ensures HyphenateSpaces(s) == s
  {
    if s != [] {
      HyphenateSpacesIdentity(s[1..]);
    }
  }

  lemma {:induction false} CollapseHyphensIdentity(s: string)
    requires NoDoubleHyphen(s)
    ensures CollapseHyphens(s) == s
  {
    if s != [] {
      if s[0] == '-' {
        assert SkipHyphens(s[1..]) == s[1..];
        CollapseHyphensIdentity(s[1..]);
      } else {
        CollapseHyphensIdentity(s[1..]);
      }
    }
  }

  lemma {:induction false} StripEdgeHyphensIdentity(s: string)
    requires NoEdgeHyphen(s)
    ensures StripEdgeHyphens(s) == s
  {
  }

  // Words: what a slug spells, independently of where its hyphens came from.

  /** A character that ends a word: white space or a hyphen. */
  predicate IsSeparator(c: char) { IsSpace(c) || c == '-' }

  function NonEmpty(ps: seq<string>): (qs: seq<string>)
    ensures forall i :: 0 <= i < |qs| ==> qs[i] != ""
  {
    if ps == [] then [] else (if ps[0] == "" then [] else [ps[0]]) + NonEmpty(ps[1..])
  }

  /** The words of `s`: its pieces between runs of white space and hyphens,
      empty pieces dropped. */
  function Words(s: string): seq<string> {
    NonEmpty(Split(s, IsSeparator))
  }

  predicate StartsWord(s: string) { s != [] && !IsSeparator(s[0]) }

  /** The words of `[c] + y` from the words of `y`: a separator adds nothing;
      any other character starts a word or extends the one `y` starts with. */
  lemma {:induction false} WordsCons(c: char, y: string)
    ensures IsSeparator(c) ==> Words([c] + y) == Words(y)
    ensures StartsWord(y) ==> |Words(y)| > 0
    ensures !IsSeparator(c) && StartsWord(y) ==> Words([c] + y) == [[c] + Words(y)[0]] + Words(y)[1..]
    ensures !IsSeparator(c) && !StartsWord(y) ==> Words([c] + y) == [[c]] + Words(y)
  {
    var s := [c] + y;
    assert s[1..] == y;
    var ps := Split(y, IsSeparator);
    assert Words(y) == (if ps[0] == "" then [] else [ps[0]]) + NonEmpty(ps[1..]);
    if !IsSeparator(c) {
      var qs := [[c] + ps[0]] + ps[1..];
      assert Split(s, IsSeparator) == qs;
      assert qs[1..] == ps[1..];
      assert Words(s) == [[c] + ps[0]] + NonEmpty(ps[1..]);
      if !StartsWord(y) {
        assert [c] + ps[0] == [c];
      }
    } else if StartsWord(y) || y == [] {
      assert Split(s, IsSeparator) == [""] + ps;
      assert ([""] + ps)[1..] == ps;
    } else {
      assert Split(s, IsSeparator) == ps;
    }
  }

  lemma {:induction false} WordsDropSeparators(s: string, k: nat)
    requires k <= |s|
    requires forall i :: 0 <= i < k ==> IsSeparator(s[i])
    ensures Words(s) == Words(s[k..])
    decreases k
  {
    if k > 0 {
      assert s == [s[0]] + s[1..];
      WordsCons(s[0], s[1..]);
      assert s[1..][k - 1..] == s[k..];
      WordsDropSeparators(s[1..], k - 1);
    }
  }

  lemma {:induction false} WordsSnocSeparator(x: string, c: char)
    requires IsSeparator(c)
    ensures Words(x + [c]) == Words(x)
    ensures StartsWord(x + [c]) <==> StartsWord(x)
  {
    if x == [] {
      assert x + [c] == [c] + x;
      WordsCons(c, x);
    } else {
      var y := x[1..];
      assert x + [c] == [x[0]] + (y + [c]);
      assert x == [x[0]] + y;
      WordsSnocSeparator(y, c);
      WordsCons(x[0], y + [c]);
      WordsCons(x[0], y);
    }
  }

  lemma {:induction false} WordsAppendSeparators(x: string, b: string)
    requires forall i :: 0 <= i < |b| ==> IsSeparator(b[i])
    ensures Words(x + b) == Words(x)
    decreases |b|
  {
    if b != [] {
      var front := b[..|b| - 1];
      assert x + b == (x + front) + [b[|b| - 1]];
      WordsSnocSeparator(x + front, b[|b| - 1]);
      assert forall i :: 0 <= i < |front| ==> IsSeparator(front[i]) by {
        forall i | 0 <= i < |front|
          ensures IsSeparator(front[i])
        {
          assert front[i] == b[i];
        }
      }
      WordsAppendSeparators(x, front);
      assert Words(x + b) == Words(x + front);
    } else {
      assert x + b == x;
    }
  }

  lemma {:induction false} WordsHyphenateSpaces(s: string)
    ensures Words(HyphenateSpaces(s)) == Words(s)
    ensures StartsWord(HyphenateSpaces(s)) <==> StartsWord(s)
    decreases |s|
  {
    if s != [] {
      if IsSpace(s[0]) {
        var u := TrimStart(s[1..]);
        var h := HyphenateSpaces(u);
        WordsHyphenateSpaces(u);
        assert HyphenateSpaces(s) == ['-'] + h;
        WordsSpaceStep(s, u, h);
      } else {
        var h := HyphenateSpaces(s[1..]);
        WordsHyphenateSpaces(s[1..]);
        assert HyphenateSpaces(s) == [s[0]] + h;
        assert s == [s[0]] + s[1..];
        WordsConsCongruent(s[0], h, s[1..]);
      }
    }
  }

  /** The white-space branch of `WordsHyphenateSpaces`: the run and the
      hyphen that replaces it both add no word. */
  lemma {:induction false} WordsSpaceStep(s: string, u: string, h: string)
    requires s != [] && IsSpace(s[0])
    requires |u| <= |s| - 1 && u == s[1..][|s| - 1 - |u|..]
    requires forall i :: 0 <= i < |s| - 1 - |u| ==> IsSpace(s[1..][i])
    requires Words(h) == Words(u) && (StartsWord(h) <==> StartsWord(u))
    ensures Words(['-'] + h) == Words(s)
    ensures !StartsWord(['-'] + h) && !StartsWord(s)
  {
    WordsCons('-', h);
    forall i | 0 <= i < |s| - 1 - |u|
      ensures IsSeparator(s[1..][i])
    {
    }
    WordsDropRunTo(s, u);
  }

  /** A leading run of separators, ending where `u` starts, adds no word. */
  lemma {:induction false} WordsDropRunTo(s: string, u: string)
    requires s != [] && IsSeparator(s[0])
    requires |u| <= |s| - 1 && u == s[1..][|s| - 1 - |u|..]
    requires forall i :: 0 <= i < |s| - 1 - |u| ==> IsSeparator(s[1..][i])
    ensures Words(s) == Words(u)
    ensures !StartsWord(s)
  {
    var k := |s| - |u|;
    assert s[k..] == u;
    forall i | 1 <= i < k
      ensures IsSeparator(s[i])
    {
      assert s[i] == s[1..][i - 1];
    }
    WordsDropSeparators(s, k);
  }

  /** Prefixing one character to two texts with the same words keeps their
      words equal. */
  lemma {:induction false} WordsConsCongruent(c: char, h: string, y: string)
    requires Words(h) == Words(y) && (StartsWord(h) <==> StartsWord(y))
    ensures Words([c] + h) == Words([c] + y)
    ensures StartsWord([c] + h) <==> StartsWord([c] + y)
  {
    WordsCons(c, h);
    WordsCons(c, y);
  }

  lemma {:induction false} WordsCollapseHyphens(s: string)
    ensures Words(CollapseHyphens(s)) == Words(s)
    ensures StartsWord(CollapseHyphens(s)) <==> StartsWord(s)
    decreases |s|
  {
    if s != [] {
      if s[0] == '-' {
        var t := SkipHyphens(s[1..]);
        var h := CollapseHyphens(t);
        WordsCollapseHyphens(t);
        assert CollapseHyphens(s) == ['-'] + h;
        assert Words(['-'] + h) == Words(h) && !StartsWord(['-'] + h) by {
          WordsCons('-', h);
        }
        WordsDropRunTo(s, t);
      } else {
        var h := CollapseHyphens(s[1..]);
        WordsCollapseHyphens(s[1..]);
        assert CollapseHyphens(s) == [s[0]] + h;
        assert s == [s[0]] + s[1..];
        WordsConsCongruent(s[0], h, s[1..]);
      }
    }
  }

  lemma {:induction false} WordsStripEdgeHyphens(s: string)
    ensures Words(StripEdgeHyphens(s)) == Words(s)
  {
    var t := if |s| > 0 && s[0] == '-' then s[1..] else s;
    if |s| > 0 && s[0] == '-' {
      assert s == ['-'] + t;
      WordsCons('-', t);
    }
    if |t| > 0 && t[|t| - 1] == '-' {
      assert t == t[..|t| - 1] + ['-'];
      WordsSnocSeparator(t[..|t| - 1], '-');
    }
  }

  lemma {:induction false} RemoveSpecialAppend(a: string, b: string)
    ensures RemoveSpecial(a + b) == RemoveSpecial(a) + RemoveSpecial(b)
  {
    if a == [] {
      assert a + b == b;
    } else {
      var c, a1 := a[0], a[1..];
      var p := if KeptChar(c) then [c] else [];
      assert a == [c] + a1;
      ConcatAssoc([c], a1, b);
      RemoveSpecialCons(c, a1 + b);
      RemoveSpecialCons(c, a1);
      RemoveSpecialAppend(a1, b);
      ConcatAssoc(p, RemoveSpecial(a1), RemoveSpecial(b));
    }
  }

  lemma ConcatAssoc(x: string, y: string, z: string)
    ensures x + (y + z) == (x + y) + z
  {
  }

  lemma {:induction false} RemoveSpecialCons(c: char, y: string)
    ensures RemoveSpecial([c] + y) == (if KeptChar(c) then [c] else []) + RemoveSpecial(y)
  {
    assert ([c] + y)[0] == c && ([c] + y)[1..] == y;
  }

  /** Trimming before the filter changes no word: the trimmed white space
      only ever separates. */
  lemma {:induction false} WordsTrimRemoveSpecial(x: string)
    ensures Words(RemoveSpecial(Trim(x))) == Words(RemoveSpecial(x))
  {
    var i, j :| && 0 <= i <= j <= |x| && Trim(x) == x[i..j]
                && (forall k :: 0 <= k < i ==> IsSpace(x[k]))
                && (forall k :: j <= k < |x| ==> IsSpace(x[k]));
    WordsRemoveSpecialSlice(x, i, j);
  }

  /** Cutting white space off both ends before the filter changes no word. */
  lemma {:induction false} WordsRemoveSpecialSlice(x: string, i: nat, j: nat)
    requires i <= j <= |x|
    requires forall k :: 0 <= k < i ==> IsSpace(x[k])
    requires forall k :: j <= k < |x| ==> IsSpace(x[k])
    ensures Words(RemoveSpecial(x[i..j])) == Words(RemoveSpecial(x))
  {
    var pre, w, post := x[..i], x[i..j], x[j..];
    assert x == pre + w + post;
    assert forall k :: 0 <= k < |pre| ==> IsSpace(pre[k]) by {
      forall k | 0 <= k < |pre|
        ensures IsSpace(pre[k])
      {
        assert pre[k] == x[k];
      }
    }
    assert forall k :: 0 <= k < |post| ==> IsSpace(post[k]) by {
      forall k | 0 <= k < |post|
        ensures IsSpace(post[k])
      {
        assert post[k] == x[j + k];
      }
    }
    RemoveSpecialAroundSpaces(pre, w, post);
    WordsAroundSeparators(pre, RemoveSpecial(w), post);
  }

  lemma {:induction false} RemoveSpecialAroundSpaces(pre: string, w: string, post: string)
    requires forall i :: 0 <= i < |pre| ==> IsSpace(pre[i])
    requires forall i :: 0 <= i < |post| ==> IsSpace(post[i])
    ensures RemoveSpecial(pre + w + post) == pre + RemoveSpecial(w) + post
  {
    RemoveSpecialIdentity(pre);
    RemoveSpecialIdentity(post);
    RemoveSpecialAppend(pre + w, post);
    RemoveSpecialAppend(pre, w);
  }

  lemma {:induction false} WordsAroundSeparators(pre: string, m: string, post: string)
    requires forall i :: 0 <= i < |pre| ==> IsSeparator(pre[i])
    requires forall i :: 0 <= i < |post| ==> IsSeparator(post[i])
    ensures Words(pre + m + post) == Words(m)
  {
    WordsAppendSeparators(pre + m, post);
    assert (pre + m)[|pre|..] == m;
    WordsDropSeparators(pre + m, |pre|);
  }

  /** A slug is its words joined by single hyphens. */
  lemma {:induction false} JoinWordsOfSlug(r: string)
    requires IsSlug(r)
    ensures Join(Words(r)) == r
    decreases |r|
  {
    if r != [] {
      var c, r1 := r[0], r[1..];
      assert r == [c] + r1;
      assert !IsSeparator(c) by {
        assert IsSlugChar(r[0]) && r[0] != '-';
      }
      if r1 == [] {
        assert Words(r) == [[c]] by {
          assert Split(r1, IsSeparator) == [""] && [""][1..] == [];
          assert Words(r1) == [];
          WordsCons(c, r1);
        }
      } else if r1[0] != '-' {
        assert IsSlug(r1) by {
          SlugSuffix(r, 1);
        }
        JoinWordsOfSlug(r1);
        var ws := Words(r1);
        assert Words(r) == [[c] + ws[0]] + ws[1..] by {
          assert IsSlugChar(r[1]);
          WordsCons(c, r1);
        }
        JoinExtendsFirst(c, ws);
      } else {
        var r2 := r1[1..];
        assert r2 == r[2..] && r1 == ['-'] + r2;
        assert IsSlug(r2) && StartsWord(r2) by {
          assert r[|r| - 1] != '-';
          assert r[2] != '-' by { assert !(r[1] == '-' && r[2] == '-'); }
          SlugSuffix(r, 2);
          assert IsSlugChar(r[2]);
        }
        JoinWordsOfSlug(r2);
        var ws := Words(r2);
        assert Words(r) == [[c]] + ws by {
          WordsCons('-', r2);
          WordsCons(c, r1);
        }
        assert Join([[c]] + ws) == [c] + "-" + Join(ws) by {
          JoinCons([c], ws);
        }
        assert r == [c] + "-" + r2;
      }
    }
  }

  /** A slug's suffix that does not start with a hyphen is a slug. */
  lemma {:induction false} SlugSuffix(r: string, k: nat)
    requires k < |r| && IsSlug(r) && r[k] != '-'
    ensures IsSlug(r[k..])
  {
    var t := r[k..];
    assert forall i :: 0 <= i < |t| ==> t[i] == r[i + k];
  }

  lemma {:induction false} JoinExtendsFirst(c: char, ws: seq<string>)
    requires |ws| > 0
    ensures Join([[c] + ws[0]] + ws[1..]) == [c] + Join(ws)
  {
    var w, rest := ws[0], ws[1..];
    assert ws == [w] + rest;
    if rest == [] {
      assert [[c] + w] + rest == [[c] + w];
    } else {
      var j := Join(rest);
      assert Join([[c] + w] + rest) == ([c] + w) + "-" + j by {
        JoinCons([c] + w, rest);
      }
      assert Join(ws) == w + "-" + j by {
        JoinCons(w, rest);
      }
      assert ([c] + w) + "-" + j == [c] + (w + "-" + j);
    }
  }

  lemma {:induction false} JoinCons(p: string, rest: seq<string>)
    requires rest != []
    ensures Join([p] + rest) == p + "-" + Join(rest)
  {
    assert ([p] + rest)[1..] == rest;
  }

}

=== FILE: text.dfy ===
/** Small string and option helpers shared by every module: the ASCII
    character classes that the source's regular expressions use, trimming,
    substring search and decimal rendering of naturals. */
module Text {

  /** A value that may be absent (`null` or `undefined` in the source). */
  datatype Option<+T> = None | Some(value: T) {
    function GetOr(default: T): T {
      match this
      case Some(v) => v
      case None => default
    }
  }

  /** JavaScript truthiness of an optional string: absent and "" are false. */
  predicate Truthy(s: Option<string>) {
    s.Some? && s.value != ""
  }

  // ASCII character classes.

  predicate IsUpper(c: char) { 'A' <= c <= 'Z' }
  predicate IsLower(c: char) { 'a' <= c <= 'z' }
  predicate IsDigit(c: char) { '0' <= c <= '9' }

  /** `\w` without the `u` flag: `[A-Za-z0-9_]`. */
  predicate IsWordChar(c: char) { IsUpper(c) || IsLower(c) || IsDigit(c) || c == '_' }

  /** ASCII white space as `\s` and `String.prototype.trim` see it:
      space, tab, line feed, vertical tab, form feed, carriage return. */
  predicate IsSpace(c: char) { c == ' ' || '\t' <= c <= '\r' }

  /** `toLowerCase` restricted to ASCII letters. */
  function LowerChar(c: char): (r: char)
    ensures !IsUpper(r)
    ensures IsWordChar(r) <==> IsWordChar(c)
    ensures IsSpace(r) <==> IsSpace(c)
    ensures (r == '-') <==> (c == '-')
    ensures !IsUpper(c) ==> r == c
  {
    if IsUpper(c) then (c as int + 32) as char else c
  }

  predicate NoSpace(s: string) {
    forall i :: 0 <= i < |s| ==> !IsSpace(s[i])
  }

  /** Drops leading white space. */
  function TrimStart(s: string): (r: string)
    ensures |r| <= |s| && r == s[|s| - |r|..]
    ensures |r| > 0 ==> !IsSpace(r[0])
    ensures forall i :: 0 <= i < |s| - |r| ==> IsSpace(s[i])
  {
    if |s| > 0 && IsSpace(s[0]) then TrimStart(s[1..]) else s
  }

  /** Drops trailing white space. */
  function TrimEnd(s: string): (r: string)
    ensures |r| <= |s| && r == s[..|r|]
    ensures |r| > 0 ==> !IsSpace(r[|r| - 1])
    ensures forall i :: |r| <= i < |s| ==> IsSpace(s[i])
  {
    if |s| > 0 && IsSpace(s[|s| - 1]) then TrimEnd(s[..|s| - 1]) else s
  }

  /** `String.prototype.trim` on ASCII text. */
  function Trim(s: string): (r: string)
    ensures |r| > 0 ==> !IsSpace(r[0]) && !IsSpace(r[|r| - 1])
    ensures r == "" <==> forall i :: 0 <= i < |s| ==> IsSpace(s[i])
    ensures |r| <= |s|
    // The input with white space removed at its two ends and nowhere else.
    ensures exists i, j ::
              && 0 <= i <= j <= |s| && r == s[i..j]
              && (forall k :: 0 <= k < i ==> IsSpace(s[k]))
              && (forall k :: j <= k < |s| ==> IsSpace(s[k]))
  {
    var u := TrimStart(s);
    TrimFacts(s, u, TrimEnd(u));
    TrimEnd(u)
  }

  /** `Trim`'s contract from what `TrimStart` and `TrimEnd` promise. */
  lemma TrimFacts(s: string, u: string, r: string)
    requires |u| <= |s| && u == s[|s| - |u|..]
    requires |u| > 0 ==> !IsSpace(u[0])
    requires forall i :: 0 <= i < |s| - |u| ==> IsSpace(s[i])
    requires |r| <= |u| && r == u[..|r|]
    requires |r| > 0 ==> !IsSpace(r[|r| - 1])
    requires forall i :: |r| <= i < |u| ==> IsSpace(u[i])
    ensures |r| > 0 ==> !IsSpace(r[0]) && !IsSpace(r[|r| - 1])
    ensures r == "" <==> forall i :: 0 <= i < |s| ==> IsSpace(s[i])
    ensures |r| <= |s|
    ensures exists i, j ::
              && 0 <= i <= j <= |s| && r == s[i..j]
              && (forall k :: 0 <= k < i ==> IsSpace(s[k]))
              && (forall k :: j <= k < |s| ==> IsSpace(s[k]))
  {
    var i := |s| - |u|;
    SuffixPrefixSlice(s, u, r);
    assert && 0 <= i <= i + |r| <= |s| && r == s[i..i + |r|]
           && (forall k :: 0 <= k < i ==> IsSpace(s[k]))
           && (forall k :: i + |r| <= k < |s| ==> IsSpace(s[k]));
    if r == "" {
      assert forall k :: 0 <= k < |s| ==> IsSpace(s[k]);
    } else {
      assert r[0] == u[0];
      assert !IsSpace(s[i]);
    }
  }

  /** A prefix `r` of a suffix `u` of `s`, located in `s`. */
  lemma {:induction false} SuffixPrefixSlice(s: string, u: string, r: string)
    requires |u| <= |s| && u == s[|s| - |u|..]
    requires |r| <= |u| && r == u[..|r|]
    requires forall k :: |r| <= k < |u| ==> IsSpace(u[k])
    ensures var i := |s| - |u|;
      && r == s[i..i + |r|]
      && (forall k :: i + |r| <= k < |s| ==> IsSpace(s[k]))
  {
    var i := |s| - |u|;
    assert u[..|r|] == s[i..][..|r|] == s[i..i + |r|];
    forall k | i + |r| <= k < |s|
      ensures IsSpace(s[k])
    {
      assert s[k] == u[k - i];
    }
  }

  /** `a` is `b` with some characters deleted. */
  predicate IsSubsequence(a: string, b: string)
    decreases |b|
  {
    if a == [] then true
    else if b == [] then false
    else if a[0] == b[0] then IsSubsequence(a[1..], b[1..])
    else IsSubsequence(a, b[1..])
  }

  predicate StartsWith(s: string, prefix: string) {
    |prefix| <= |s| && s[..|prefix|] == prefix
  }

  /** `pat` occurs in `s` starting at index `i`. */
  predicate OccursAt(s: string, pat: string, i: int) {
    0 <= i && i + |pat| <= |s| && s[i..i + |pat|] == pat
  }

  predicate NoOccurrence(s: string, pat: string) {
    forall i :: 0 <= i <= |s| - |pat| ==> !OccursAt(s, pat, i)
  }

  /** The first index at or after `from` where `pat` occurs, as `indexOf` finds it. */
  function IndexOfFrom(s: string, pat: string, from: nat): (r: Option<nat>)
    requires |pat| > 0
    decreases |s| - from
    ensures r.Some? ==> from <= r.value && OccursAt(s, pat, r.value)
    ensures r.Some? ==> forall i :: from <= i < r.value ==> !OccursAt(s, pat, i)
    ensures r.None? ==> forall i :: from <= i ==> !OccursAt(s, pat, i)
  {
    if from + |pat| > |s| then None
    else if s[from..from + |pat|] == pat then Some(from)
    else IndexOfFrom(s, pat, from + 1)
  }

  /** `s.indexOf(pat)`, absent for -1. */
  function IndexOf(s: string, pat: string): (r: Option<nat>)
    requires |pat| > 0
    ensures r.Some? ==> OccursAt(s, pat, r.value)
    ensures r.Some? ==> forall i :: 0 <= i < r.value ==> !OccursAt(s, pat, i)
    ensures r.None? <==> NoOccurrence(s, pat)
  {
    IndexOfFrom(s, pat, 0)
  }

  // Decimal rendering of naturals, as template literals print integers.

  function DigitChar(d: nat): (c: char)
    requires d < 10
    ensures IsDigit(c)
  {
    ('0' as int + d) as char
  }

  function DigitValue(c: char): nat
    requires IsDigit(c)
  {
    c as int - '0' as int
  }

  predicate AllDigits(s: string) {
    forall i :: 0 <= i < |s| ==> IsDigit(s[i])
  }

  /** The decimal digits of `n`, most significant first, without leading zeros. */
  function NatToString(n: nat): (r: string)
    ensures |r| > 0 && AllDigits(r)
    ensures |r| > 1 ==> r[0] != '0'
  {
    if n < 10 then [DigitChar(n)] else NatToString(n / 10) + [DigitChar(n % 10)]
  }

  /** Reads a digit string back as a natural. */
  function ParseNat(s: string): nat
    requires AllDigits(s)
  {
    if s == [] then 0 else 10 * ParseNat(s[..|s| - 1]) + DigitValue(s[|s| - 1])
  }

  /** Rendering a natural in decimal loses nothing: it reads back as itself. */
  lemma {:induction false} ParseNatToString(n: nat)
    ensures ParseNat(NatToString(n)) == n
  {
    var s := NatToString(n);
    if n >= 10 {
      var prefix := NatToString(n / 10);
      assert s[..|s| - 1] == prefix;
      ParseNatToString(n / 10);
    }
  }

  /** Distinct naturals render as distinct strings. */
  lemma {:induction false} NatToStringInjective(m: nat, n: nat)
    requires NatToString(m) == NatToString(n)
    ensures m == n
  {
    ParseNatToString(m);
    ParseNatToString(n);
  }
}
